=== FILE: README.md ===
# Zem (ZopeEditManager) — a verified model of its list and preference logic

Zem is a small macOS application that keeps track of Zope objects opened for
external editing. `ZemAppDelegate.py` keeps the list of open edits. It polls
their local files and pushes changed ones back to the server. It decides
whether to borrow an existing WebDAV lock when a document is opened, removes
finished rows, and migrates the preference domain of an older release.
`PreferenceController.py` runs the preference window. It works out the
running macOS flavour from the kernel release string. It edits the table of
helper applications (type, extension, editor) and merges that table back into
the `helper_apps` preference when the window closes.

This project models that logic on plain values:

- The user-defaults store is a `map<string, Value>`. `Value` is a
  property-list value: null, boolean, integer, string or dictionary.
- Documents are records holding a content file, a baseline modification time,
  server metadata and a lock token.
- Table rows are maps from column identifier to value.
- Every alert panel's answer is a boolean input.
- The order in which a dictionary's keys are visited is an input sequence
  that lists each key exactly once.
- Python exceptions (a non-integer version field, `has_key` or `.get` on a
  non-dictionary, a write into the read-only dictionary `dictionaryForKey_`
  returns, a missing row column) become `Failure` results.

Modules:

- `Wrappers`: Option and Result.
- `Values`: the store and its typed accessors.
- `Decimal`: `%d` formatting, the decimal text of a stored number, and `int()` parsing.
- `Versions`: `comparable_version` and the OS-flavour comparison.
- `IndexSets`: the descending walk over a selection.
- `EditSessions`: the polling tick, finishing edits, and the lock decision.
- `PrefsUpgrade`: the preference migration.
- `HelperApps`: the preference window's helper table.

## Model

| member | source | states |
|---|---|---|
| IndexSets.IterIndexSet | ZemAppDelegate.py:20-24 | the walk visits each member of the selection exactly once, in strictly decreasing order, and starts from the largest |
| IndexSets.IndexLessThan | ZemAppDelegate.py:24 | the answer is the greatest member below the given index; None means there is no member below it |
| IndexSets.LastIndex | ZemAppDelegate.py:21 | None exactly for an empty selection; otherwise the selection's maximum |
| EditSessions.ChangedBefore | ZemAppDelegate.py:41-47 | the pushed positions are exactly those whose observed mtime differs from the baseline, in increasing order |
| EditSessions.UpdateIfModified | ZemAppDelegate.py:39-57 | a document is pushed iff its observed mtime differs from its baseline, in list order and at most once; every baseline becomes the observed mtime; other fields are untouched; no document is added or removed; the tick returns 1 |
| EditSessions.SecondTickQuiet | ZemAppDelegate.py:39-57 | a second tick observing the same mtimes pushes nothing and changes nothing |
| EditSessions.ChangedBetweenTicks | ZemAppDelegate.py:41-55 | across two ticks, the second pushes exactly the documents whose observed mtime moved, and the baselines follow the second observation |
| EditSessions.DeleteSelectedRows | ZemAppDelegate.py:140-142 | deleting the selected rows one by one from the highest index down leaves exactly the unselected rows, in their original order |
| EditSessions.DeleteStep | ZemAppDelegate.py:140-141 | deleting the highest remaining selected row keeps the positions of the lower selected rows valid |
| EditSessions.SurvivorsLength | ZemAppDelegate.py:140-141 | the list shrinks by exactly the number of selected rows |
| EditSessions.FinishEdits | ZemAppDelegate.py:129-142 | with nothing selected, nothing changes and no panel is shown; otherwise exactly the selected rows go and the survivors keep their order; the panel is shown iff confirmation is on, in its single or plural form with the count; the answer does not affect the rows |
| EditSessions.CancelStillRemoves | ZemAppDelegate.py:131-142 | `finishEdits_` with confirmation on, one selected row and the answer Cancel shows the single-row panel and still removes the row |
| EditSessions.FinishEditsConfirmed | ZemAppDelegate.py:131-142 | corrected version: a Cancel answer keeps every row; otherwise the selected rows are removed, and the panel is shown as before |
| EditSessions.PlanOpen | ZemAppDelegate.py:93-115 | the lock token becomes "opaquelocktoken:" + the metadata token iff locks are on, a token exists, and one of always-borrow, the borrow hint or consent holds; otherwise the document is unchanged; the borrow panel is shown iff neither preference nor hint settles it; the `finishEdits_` branch is taken iff locks are on and there is no token; `lock()` is called iff locks are on |
| EditSessions.ConsentOnlyWhenAsked | ZemAppDelegate.py:95-107 | when the borrow panel is not shown, the user's answer cannot change the outcome |
| PrefsUpgrade.Kept | ZemAppDelegate.py:158-169 | the first loop yields exactly the kept keys, each copied from the old domain, Null where absent |
| PrefsUpgrade.Upgrade | ZemAppDelegate.py:157-191 | as written: fails iff some old key outside the seven kept ones, `temp_dir` included, holds a non-dictionary, or has something to write while `helper_apps` is stored (and so read-only); otherwise the new domain's keys are exactly the seven kept ones, `version_check` is the running version, a stored `helper_apps` is unchanged, and every other kept key is copied from the old domain (Null where absent) |
| PrefsUpgrade.FoldStray | ZemAppDelegate.py:170-184 | folding fails iff a stray key holds a non-dictionary or writes into a read-only dictionary; the result holds the old helper names plus the names stray keys write; entries no stray key writes are unchanged; a read-only dictionary comes out unchanged |
| PrefsUpgrade.Folded | ZemAppDelegate.py:176-183 | a stray dictionary with an "editor" goes in whole under its own key; otherwise each sub-key goes in as "key/sub_key", and nothing else is added |
| PrefsUpgrade.FoldStep | ZemAppDelegate.py:174-183 | a step of the fold at a kept key or a dictionary adds exactly what the visited key writes |
| PrefsUpgrade.LastWriterWins | ZemAppDelegate.py:174-183 | a helper name holds what the last stray key to write it wrote |
| PrefsUpgrade.ConfirmDefaultUnreachable | ZemAppDelegate.py:168-188 | migrating a domain without `confirm_on_finish` yields Null for it as written, and true as intended |
| PrefsUpgrade.StoredHelpersReadOnly | ZemAppDelegate.py:171-177 | an old domain with a stored `helper_apps` and one old editor entry fails to migrate as written, and migrates with the entry folded in as intended |
| PrefsUpgrade.StoredTempDirBlocksUpgrade | ZemAppDelegate.py:159-176 | an old domain holding the `temp_dir` string fails to migrate as written, and keeps it as intended |
| PrefsUpgrade.UpgradeIntended | ZemAppDelegate.py:157-191 | corrected version: fails iff some old key outside the seven kept ones and `temp_dir` holds a non-dictionary; the new keys are those eight; `helper_apps` is the fold into a fresh copy of the old dictionary; a missing `confirm_on_finish` becomes true and a present one is kept; `version_check` is the running version; the rest are copied |
| PrefsUpgrade.FoldWithoutTempDir | ZemAppDelegate.py:159-183 | when `temp_dir` is not among the visited keys, folding with or without it among the kept keys gives the same result |
| PrefsUpgrade.AsWrittenAgreesElsewhere | ZemAppDelegate.py:157-191 | without a stored `helper_apps` or `temp_dir` and with `confirm_on_finish` present, the migration as written and as intended fail together and agree on every kept key |
| PrefsUpgrade.UpgradeFailsOnlyOnStrays | ZemAppDelegate.py:174-176 | whatever the visiting order, the intended migration fails exactly when some old key outside the current ones holds something other than a dictionary |
| PrefsUpgrade.UpgradeKeepsHelpers | ZemAppDelegate.py:171-184 | in the intended migration, the migrated `helper_apps` keeps every old entry no stray key overwrites, and its names are exactly the old ones plus the folded ones |
| PrefsUpgrade.StrayEditorEntryKept | ZemAppDelegate.py:176-177 | in the intended migration, a stray editor entry lands whole under its own name unless a later key overwrites it |
| PrefsUpgrade.StraySubKeysFlattened | ZemAppDelegate.py:178-183 | in the intended migration, each sub-key of a stray entry without an editor lands under "key/sub_key" unless a later key overwrites it |
| Versions.ComparableVersion | PreferenceController.py:16-20 | succeeds iff every dot-separated field is an integer; then one integer per field, in order |
| Versions.ParseFields | PreferenceController.py:20 | fields convert in order; the failure names the first field that is not an integer |
| Versions.ComparableVersionOfFormatted | PreferenceController.py:16-20 | a release written as dotted decimal numbers reads back as exactly those numbers |
| Versions.JoinSplit | PreferenceController.py:20 | joining the fields of a split on "." gives back the string |
| Versions.SplitJoin | PreferenceController.py:20 | splitting a join of separator-free fields gives back the fields |
| Versions.LessImpliesLexBefore | PreferenceController.py:24 | every pair of version lists the comparison orders is in lexicographic order |
| Versions.LexBeforeImpliesLess | PreferenceController.py:24 | every pair in lexicographic order is ordered by the comparison |
| Versions.LessIsLexBefore | PreferenceController.py:24 | list comparison is exactly lexicographic order: a proper prefix, or a smaller number at the first difference |
| Versions.LessIrreflexive | PreferenceController.py:24 | no version list is below itself |
| Versions.LessTransitive | PreferenceController.py:24 | the comparison is transitive |
| Versions.LessTotal | PreferenceController.py:24 | any two different version lists are ordered one way or the other |
| Versions.MacOsFlavour | PreferenceController.py:23-27 | fails iff the release does not parse; otherwise "panther" iff the release is not lexicographically below [7, 0, 0] |
| Versions.NumericNotTextual | PreferenceController.py:23-27 | release "10.3.0" is panther and "6.8" is jaguar: fields compare as numbers, not text |
| Decimal.ParseFormat | PreferenceController.py:20 | `int` reads back the number `%d` wrote |
| Decimal.ParseInt | PreferenceController.py:20 | succeeds iff the field is an optional sign followed by at least one digit, with the number the digits denote, negated after a minus sign |
| Decimal.ParseIntText | PreferenceController.py:407 | the decimal text written for any integer, negative ones included, reads back as that integer |
| Values.StringForKey | PreferenceController.py:407 | a stored string reads as itself, a stored integer as its shortest decimal text (a minus sign for a negative one, and `int` reads it back) and a boolean as "1" or "0"; an absent key or a dictionary gives None |
| Decimal.FormatInjective | PreferenceController.py:98-100 | distinct row counts give distinct `%d` labels |
| HelperApps.AddHelper | PreferenceController.py:94-103 | appends exactly one row {type: "Type n", extension: "Ext n", editor: "Editor n"}, where n is the previous row count; existing rows are unchanged |
| HelperApps.PlaceholderTypesDiffer | PreferenceController.py:98 | placeholder rows added at different sizes have different types |
| HelperApps.RemoveHelper | PreferenceController.py:106-110 | with selection -1 nothing changes; otherwise exactly the selected row goes, the length drops by one and the others keep their order |
| HelperApps.RemoveUndoesAdd | PreferenceController.py:94-110 | removing the row just added restores the table |
| HelperApps.ObjectValue | PreferenceController.py:196-198 | a cell reads as its value, or "" when the row lacks the column |
| HelperApps.SetObjectValue | PreferenceController.py:200-204 | the written cell holds the value written; the row gains no other column and keeps its other cells; every other row is unchanged |
| HelperApps.ReadAfterWrite | PreferenceController.py:196-204 | reading a cell just written gives the value written |
| HelperApps.WriteLeavesOtherCells | PreferenceController.py:196-204 | writing one cell changes what no other cell reads as |
| HelperApps.WriteWhatWasRead | PreferenceController.py:196-204 | writing back what a present cell reads as leaves the table unchanged |
| HelperApps.TempDir | PreferenceController.py:407 | the stored temporary directory as `stringForKey_` reads it (a number as its decimal text) when that is non-empty, "/tmp" otherwise; never empty |
| HelperApps.LoadRows | PreferenceController.py:413-419 | fails iff some helper entry is not a dictionary; otherwise one row per helper type in visiting order, with the type and with the extension and editor defaulting to "" |
| HelperApps.LoadPanel | PreferenceController.py:398-419 | `init` fails iff a helper entry is not a dictionary; otherwise the window holds the four flags as `boolForKey_` reads them, the temporary directory with its default, the stored `helper_apps`, and the rows built from it |
| HelperApps.LoadOneRowPerType | PreferenceController.py:413-419 | when every helper entry is a dictionary, loading succeeds and the table has exactly one row per helper type, each with all three columns and distinct types |
| HelperApps.LoadedTypes | PreferenceController.py:413-419 | the rows built from the helper dictionary name each helper type exactly once and name no other type |
| HelperApps.LoadedNames | PreferenceController.py:413-419 | a type is named by some loaded row iff it is a helper type |
| HelperApps.LoadedRowEntry | PreferenceController.py:413-419 | a loaded row is savable and saves as its entry's editor and extension, with missing ones as "" |
| HelperApps.MergeRows | PreferenceController.py:123-128 | succeeds iff every row has the three columns and a string type; the result's types are exactly the old ones plus the rows' types |
| HelperApps.MergeKeepsUnnamed | PreferenceController.py:123-128 | an entry no row names, including one whose row was removed, is unchanged by the merge |
| HelperApps.MergeLastRowWins | PreferenceController.py:123-127 | a row's type maps to that row's editor and extension unless a later row has the same type: the last row with a type wins |
| HelperApps.WriteFlags | PreferenceController.py:114-121 | the four flags are stored as booleans and the temporary directory as a string; every other key keeps its value |
| HelperApps.MergedSoFar | PreferenceController.py:123-127 | the in-place merge never drops a type, and equals the merge's result when the merge succeeds |
| HelperApps.MergedSoFarIsPrefixMerge | PreferenceController.py:123-127 | when a row lacks one of its three columns, the `KeyError` leaves the window holding exactly the merge of the rows before it: those are written, that row and every later one are not (for a row whose type is not a string the source differs, see "## Left out") |
| HelperApps.SavePreferences | PreferenceController.py:113-130 | the flag writes come first and survive a merge failure; `helper_apps` becomes the merged dictionary when the merge succeeds and is untouched when it fails; the window keeps the dictionary merged in place, which is what was stored, and keeps every type it had; no other key is added, removed or changed, and a failed save neither creates nor changes `helper_apps` |
| HelperApps.SavedTypesPersist | PreferenceController.py:123-128 | since the window keeps its dictionary across saves, a later save stores every type an earlier save stored, and a type the later table no longer names keeps its earlier entry |
| HelperApps.RemovedRowStaysSaved | PreferenceController.py:106-128 | a placeholder row saved, removed and saved again stays in the stored `helper_apps` |
| HelperApps.MergeLoadedKeys | PreferenceController.py:123-128 | merging freshly loaded rows adds no helper type |
| HelperApps.LoadThenSave | PreferenceController.py:413-419 | opening and closing the window without edits keeps the same helper types, each with its editor and extension, missing ones becoming "" |

## Left out

- `setup.py`: packaging metadata only, with no logic.
- The toolbar (`addToolbarItem`, `createToolbar*`, `toolbar*` delegate methods), pane switching and `resizeViewFor_`: window geometry and floating point.
- `awakeFromNib`, outlets, button images, `tableViewSelectionDidChange_` and `tableView_shouldEditTableColumn_row_`: view state only.
- `chooseTempDir_` and its sheet callback: `NSOpenPanel` interaction.
- Persistence: `synchronize`, `removePersistentDomainForName_`, `setPersistentDomain_forName_` and the registration domain. The store is one in-memory map read by every accessor.
- `resetPrefs` and the version-check dispatch in `ZemAppDelegate.init`: they load a bundled plist and branch on an alert answer.
- The `NSTimer` scheduling, the `save_interval` float and its 20.0 fallback: float arithmetic and run-loop scheduling are not modelled.
- HelperApps.SavePreferences: does not model the `save_interval` write, because it is a float. The key is left as it was.
- `NSRunAlertPanel`: each answer is a boolean input.
- EditSessions.UpdateIfModified: does not model `os.path.getmtime` or `putChanges` raising. In the source that ends the tick, and the raising document and every later one keep their old baselines. The model takes every observation as given.
- HelperApps.MergedSoFar: a row whose type is not a string stops the model's merge there, so that row and every later one are left out of the window's dictionary. The source raises nothing in the loop: it writes that row and every later one into `_helper_apps`, and only `setObject_forKey_` refuses the dictionary. The non-string key then stays in the window's dictionary, so every later save from that window is refused too, even after the row is removed; in the model a later save without the row succeeds. Helper names are modelled as strings only, which is why the non-string key has no place in the window's dictionary. HelperApps.MergedSoFarIsPrefixMerge and HelperApps.SavePreferences inherit this difference for such rows.
- `ZopeDocument` is not part of this model. `putChanges` is recorded as the `pushed` index log. `lock()` is the `locks` flag. The server-side effects of both, `getEditor`, `getContentFile`, `removeFileIfNecessary` and the `NSWorkspace` editor launch are not modelled.
- The "Last synched" message and the spinner in `updateIfModified`: display only.
- `application_openFile_`: it builds a `ZopeDocument` from the file, calls `removeFileIfNecessary`, appends the document to `current_edits_data` and calls `openDocument_`, which is modelled as EditSessions.PlanOpen. Adding the document to the list of edits, which is how a new edit session is registered, is not modelled; the list is an input to the operations that use it.
- `gotoEdit_`: it fetches the selected document and calls `openDocument_` (EditSessions.PlanOpen).
- `performClose_`, `showPreferencePanel_`, `numberOfRowsInTableView_`, `windowWillClose_` and the checkbox setters: Cocoa wiring around the modelled state.
- The delegate's `getattr` cell accessor: it calls `ZopeDocument` getters that are not part of this model.
- `os.path.getmtime` and `os.uname`: their results are inputs. Modification times are integers, not floats.
- `tableView_sortDescriptorsDidChange_` and the sort descriptors: Cocoa's case-insensitive collation is not visible.
- `applicationWillTerminate_`: a shutdown path that deletes by ascending index and fails part-way on a list of two or more.
- Decimal.ParseInt: does not accept the surrounding whitespace, underscores or non-ASCII digits that Python's `int` also accepts.
- Values.BoolForKey: reads a stored string as false, rather than parsing it as `NSString.boolValue` does.
- EditSessions.PlanOpen: the `finishEdits_` call it reports is not chained into EditSessions.FinishEdits, because that call passes no selection of its own.
- The docstring of `finishEdits_` says finishing releases the lock and deletes the local copy. The code does neither, and the model follows the code.

## Findings

| source | as written | input that shows it | evidently intended | confidence | as-written member | corrected member |
|---|---|---|---|---|---|---|
| ZemAppDelegate.py:131-142 | the confirmation answer is stored in `perform`, which is never read; the selected rows are deleted whatever the user answers | `confirm_on_finish` on, one row selected, the user answers "Cancel": the row is removed | "Cancel" keeps the rows | high; not executed | EditSessions.FinishEdits, EditSessions.CancelStillRemoves | EditSessions.FinishEditsConfirmed |
| ZemAppDelegate.py:168-188 | every kept key, `confirm_on_finish` included, is inserted before the `has_key("confirm_on_finish")` test, so the default never applies | an old domain with no `confirm_on_finish`: it migrates to None instead of YES | a missing `confirm_on_finish` migrates to YES | medium; not executed | PrefsUpgrade.Upgrade, PrefsUpgrade.ConfirmDefaultUnreachable | PrefsUpgrade.UpgradeIntended |
| ZemAppDelegate.py:171-177 | the stray entries are written straight into the dictionary `dictionaryForKey_` returns, which Cocoa hands back immutable; the preference window copies it into an `NSMutableDictionary` first (PreferenceController.py:404-406), the migration does not | an old domain with a `helper_apps` dictionary and an old entry `html` holding an editor: the write raises | the entries are folded into a mutable copy | medium (rests on Cocoa's documented immutability); not executed | PrefsUpgrade.Upgrade, PrefsUpgrade.StoredHelpersReadOnly | PrefsUpgrade.UpgradeIntended |
| ZemAppDelegate.py:159-176 | `temp_dir`, which `savePreferences_` always writes (PreferenceController.py:121), is missing from `keep_keys`, so the migration takes it for an old helper entry and calls `has_key` on a string | an old domain holding `temp_dir = "/tmp"`: `has_key` raises | `temp_dir` is kept like the other current preferences | high; not executed | PrefsUpgrade.Upgrade, PrefsUpgrade.StoredTempDirBlocksUpgrade | PrefsUpgrade.UpgradeIntended |

=== FILE: Decimal.dfy ===
/** Decimal text for integers: the `"%d"` formatting the helper table uses for
    its placeholder rows and the `int()` conversion the version parser uses. */
module Decimal {
  import opened Wrappers

  predicate IsDigit(c: char) {
    '0' <= c <= '9'
  }

  predicate AllDigits(s: string) {
    forall i :: 0 <= i < |s| ==> IsDigit(s[i])
  }

  function DigitValue(c: char): (d: nat)
    requires IsDigit(c)
    ensures d < 10
  {
    (c as int - '0' as int) as nat
  }

  function DigitChar(d: nat): (c: char)
    requires d < 10
    ensures IsDigit(c) && DigitValue(c) == d
  {
    ('0' as int + d) as char
  }

  /** The number a run of decimal digits denotes, most significant first; no digits denote 0. */
  function DigitsValue(s: string): nat
    requires AllDigits(s)
  {
    if |s| == 0 then 0 else DigitsValue(s[..|s| - 1]) * 10 + DigitValue(s[|s| - 1])
  }

  /** `"%d" % n` for a non-negative n: the shortest decimal spelling. */
  function Format(n: nat): (s: string)
    ensures |s| >= 1
    ensures AllDigits(s)
    ensures s[0] == '0' ==> n == 0
  {
    if n < 10 then [DigitChar(n)] else Format(n / 10) + [DigitChar(n % 10)]
  }

  /** Python's `int(s)` restricted to ASCII text: an optional sign followed by
      one or more decimal digits; anything else raises, modelled as None. */
  function ParseInt(s: string): (r: Option<int>)
    ensures r.Some? <==>
              || (|s| >= 1 && AllDigits(s))
              || (|s| >= 2 && (s[0] == '-' || s[0] == '+') && AllDigits(s[1..]))
    ensures r.Some? && |s| >= 1 && AllDigits(s) ==> r.value == DigitsValue(s)
    ensures r.Some? && s[0] == '-' ==> r.value == -(DigitsValue(s[1..]) as int)
    ensures r.Some? && s[0] == '+' ==> r.value == DigitsValue(s[1..])
  {
    if |s| >= 1 && AllDigits(s) then Some(DigitsValue(s))
    else if |s| >= 2 && s[0] == '-' && AllDigits(s[1..]) then Some(-(DigitsValue(s[1..]) as int))
    else if |s| >= 2 && s[0] == '+' && AllDigits(s[1..]) then Some(DigitsValue(s[1..]))
    else None
  }

  /** Reading back what `Format` writes gives the number it was given. */
  lemma {:induction false} FormatValue(n: nat)
    ensures DigitsValue(Format(n)) == n
  {
    if n >= 10 {
      FormatValue(n / 10);
      var s := Format(n);
      assert s[..|s| - 1] == Format(n / 10);
    }
  }

  /** `int("%d" % n) == n`: formatting and parsing are inverse. */
  lemma ParseFormat(n: nat)
    ensures ParseInt(Format(n)) == Some(n)
  {
    FormatValue(n);
  }

  /** Distinct numbers are formatted differently, so the placeholder labels
      of different rows never coincide. */
  lemma FormatInjective(m: nat, n: nat)
    ensures Format(m) == Format(n) ==> m == n
  {
    FormatValue(m);
    FormatValue(n);
  }

  /** The decimal text of any integer: a minus sign before the digits of a
      negative number, as `str` and `stringValue` write it. */
  function IntText(i: int): string
  {
    if i < 0 then "-" + Format(-i) else Format(i)
  }

  /** `int(str(i)) == i` for every integer, negative ones included. */
  lemma ParseIntText(i: int)
    ensures ParseInt(IntText(i)) == Some(i)
  {
    if i < 0 {
      var digits := Format(-i);
      var s := "-" + digits;
      assert s[1..] == digits;
      assert !IsDigit(s[0]);
      FormatValue(-i);
      assert ParseInt(s) == Some(-(DigitsValue(digits) as int));
    } else {
      ParseFormat(i);
    }
  }
}

=== FILE: EditSessions.dfy ===
/** The application delegate's list of documents open for external editing:
    the polling tick that pushes changed files back to the server, the
    deletion of finished rows, and the lock decision made when a document is
    opened. The remote document itself is a plain record; its effects
    (pushing content, taking a lock) are reported as outputs. */
module EditSessions {
  import opened Wrappers
  import opened Values
  import opened IndexSets

  /** One document checked out for editing: the local file it is mirrored to,
      the modification time seen when it was last synchronised, the metadata
      the server sent with it, and the lock token it will present. */
  datatype Doc = Doc(
    contentFile: string,
    lastMtime: int,
    metadata: map<string, string>,
    lockToken: Option<string>)

  // ---------------------------------------------------------------------
  // Polling tick

  /** What one tick leaves behind: the documents with their new baselines, the
      positions of the documents whose changes were pushed (in the order the
      pushes happened), and the value returned to the timer. */
  datatype Tick = Tick(docs: seq<Doc>, pushed: seq<nat>, status: int)

  /** The positions among the first `n` documents whose observed time differs
      from their baseline, in increasing order: the documents the loop pushes. */
  function ChangedBefore(docs: seq<Doc>, mtimes: seq<int>, n: nat): (p: seq<nat>)
    requires n <= |docs| == |mtimes|
    ensures forall i: nat :: i in p <==> i < n && mtimes[i] != docs[i].lastMtime
    ensures forall j, k :: 0 <= j < k < |p| ==> p[j] < p[k] < n
    ensures (forall i :: 0 <= i < n ==> mtimes[i] == docs[i].lastMtime) ==> p == []
    decreases n
  {
    if n == 0 then []
    else ChangedBefore(docs, mtimes, n - 1) + (if mtimes[n - 1] != docs[n - 1].lastMtime then [n - 1] else [])
  }

  /** `updateIfModified`: `mtimes[i]` is the modification time observed for
      document i's local file during this tick. A document is pushed exactly
      when that time differs from its baseline, and every baseline ends up
      equal to the observed time; no document is added or removed. */
  function UpdateIfModified(docs: seq<Doc>, mtimes: seq<int>): (r: Tick)
    requires |mtimes| == |docs|
    ensures r.status == 1
    ensures |r.docs| == |docs|
    ensures forall i :: 0 <= i < |docs| ==> r.docs[i] == docs[i].(lastMtime := mtimes[i])
    ensures forall i: nat :: i in r.pushed <==> i < |docs| && mtimes[i] != docs[i].lastMtime
    ensures forall j, k :: 0 <= j < k < |r.pushed| ==> r.pushed[j] < r.pushed[k] < |docs|
    ensures (forall i :: 0 <= i < |docs| ==> mtimes[i] == docs[i].lastMtime) ==> r.pushed == []
  {
    Tick(seq(|docs|, i requires 0 <= i < |docs| => docs[i].(lastMtime := mtimes[i])),
         ChangedBefore(docs, mtimes, |docs|),
         1)
  }

  /** A second tick that observes the same modification times pushes nothing
      and changes nothing. */
  lemma SecondTickQuiet(docs: seq<Doc>, mtimes: seq<int>)
    requires |mtimes| == |docs|
    ensures var first := UpdateIfModified(docs, mtimes);
            var second := UpdateIfModified(first.docs, mtimes);
            second.pushed == [] && second.docs == first.docs
  {
  }

  /** Between two ticks, exactly the documents whose observed time moved are
      pushed by the second tick, each once, and their baselines follow. */
  lemma ChangedBetweenTicks(docs: seq<Doc>, before: seq<int>, after: seq<int>)
    requires |before| == |docs| && |after| == |docs|
    ensures var second := UpdateIfModified(UpdateIfModified(docs, before).docs, after);
            && (forall i: nat :: i in second.pushed <==> i < |docs| && after[i] != before[i])
            && (forall i :: 0 <= i < |docs| ==> second.docs[i].lastMtime == after[i])
  {
  }

  // ---------------------------------------------------------------------
  // Finishing edits

  /** The elements of `xs` at positions from `i` on that are not selected,
      in their original order. */
  function KeepFrom<T>(xs: seq<T>, sel: set<nat>, i: nat): seq<T>
    decreases |xs| - i
  {
    if i >= |xs| then [] else (if i in sel then [] else [xs[i]]) + KeepFrom(xs, sel, i + 1)
  }

  /** The rows of `xs` whose positions are not selected, in their original order. */
  function Survivors<T>(xs: seq<T>, sel: set<nat>): seq<T>
  {
    KeepFrom(xs, sel, 0)
  }

  /** A run of unselected positions is kept verbatim. */
  lemma {:induction false} KeepUnselectedRun<T>(xs: seq<T>, sel: set<nat>, a: nat, b: nat)
    requires a <= b <= |xs|
    requires forall x :: a <= x < b ==> x !in sel
    ensures KeepFrom(xs, sel, a) == xs[a..b] + KeepFrom(xs, sel, b)
    decreases b - a
  {
    if a < b {
      KeepUnselectedRun(xs, sel, a + 1, b);
      assert a !in sel;
      assert KeepFrom(xs, sel, a) == [xs[a]] + KeepFrom(xs, sel, a + 1);
      assert xs[a..b] == [xs[a]] + xs[a + 1..b];
    }
  }

  /** The selected positions from `i` on. */
  function SelectedFrom(sel: set<nat>, i: nat, n: nat): set<nat>
  {
    set x | x in sel && i <= x < n
  }

  /** Exactly one row disappears per selected position. */
  lemma {:induction false} KeepFromLength<T>(xs: seq<T>, sel: set<nat>, i: nat)
    requires i <= |xs|
    ensures |KeepFrom(xs, sel, i)| == |xs| - i - |SelectedFrom(sel, i, |xs|)|
    decreases |xs| - i
  {
    if i == |xs| {
      assert SelectedFrom(sel, i, |xs|) == {};
    } else {
      KeepFromLength(xs, sel, i + 1);
      if i in sel {
        assert SelectedFrom(sel, i, |xs|) == SelectedFrom(sel, i + 1, |xs|) + {i};
      } else {
        assert SelectedFrom(sel, i, |xs|) == SelectedFrom(sel, i + 1, |xs|);
      }
    }
  }

  /** Deleting a selection of rows shortens the list by the number of rows selected. */
  lemma SurvivorsLength<T>(xs: seq<T>, sel: set<nat>)
    requires forall x :: x in sel ==> x < |xs|
    ensures |Survivors(xs, sel)| == |xs| - |sel|
  {
    KeepFromLength(xs, sel, 0);
    assert SelectedFrom(sel, 0, |xs|) == sel;
  }

  /** With nothing selected every row survives. */
  lemma {:induction false} SurvivorsOfNothing<T>(xs: seq<T>)
    ensures Survivors(xs, {}) == xs
  {
    KeepUnselectedRun(xs, {}, 0, |xs|);
  }

  /** Deleting selected row `row` from a list whose rows from `lim` on are
      already filtered, when no row strictly between them is selected, leaves
      a list filtered from `row` on. */
  lemma DeleteStep<T>(rows: seq<T>, selection: set<nat>, remaining: seq<T>, row: nat, lim: nat)
    requires row < lim <= |rows|
    requires row in selection
    requires forall x :: row < x < lim ==> x !in selection
    requires remaining == rows[..lim] + KeepFrom(rows, selection, lim)
    ensures remaining[..row] + remaining[row + 1..] == rows[..row] + KeepFrom(rows, selection, row)
  {
    var before := rows[..row];
    var after := rows[row + 1..lim] + KeepFrom(rows, selection, lim);
    assert rows[..lim] == before + [rows[row]] + rows[row + 1..lim];
    assert remaining == before + [rows[row]] + after;
    SpliceOut(before, rows[row], after);
    KeepUnselectedRun(rows, selection, row + 1, lim);
    assert KeepFrom(rows, selection, row) == KeepFrom(rows, selection, row + 1);
  }

  /** Deleting the element at position `|before|` leaves what surrounds it. */
  lemma SpliceOut<T>(before: seq<T>, x: T, after: seq<T>)
    ensures var s := before + [x] + after; s[..|before|] + s[|before| + 1..] == before + after
  {
    var s := before + [x] + after;
    assert s[..|before|] == before;
    assert s[|before| + 1..] == after;
  }

  /** Deletes the selected rows one at a time, from the highest index down,
      as `finishEdits_` does: deleting higher rows first leaves the positions
      of the rows still to be deleted unchanged. */
  method DeleteSelectedRows<T>(rows: seq<T>, selection: set<nat>) returns (remaining: seq<T>)
    requires forall x :: x in selection ==> x < |rows|
    ensures remaining == Survivors(rows, selection)
  {
    var order := IterIndexSet(selection, |rows|);
    remaining := rows;
    ghost var lim: nat := |rows|;
    var k := 0;
    while k < |order|
      invariant 0 <= k <= |order|
      invariant lim <= |rows|
      invariant k == 0 ==> lim == |rows|
      invariant k > 0 ==> lim == order[k - 1]
      invariant remaining == rows[..lim] + KeepFrom(rows, selection, lim)
    {
      var row := order[k];
      assert row < lim by {
        if k == 0 { assert row in selection; } else { assert order[k - 1] > order[k]; }
      }
      forall m | 0 <= m < |order|
        ensures order[m] <= row || order[m] >= lim
      {
        if m < k {
          assert m == k - 1 || order[m] > order[k - 1];
        } else {
          assert m == k || order[m] < order[k];
        }
      }
      assert forall x :: row < x < lim ==> x !in selection;
      DeleteStep(rows, selection, remaining, row, lim);
      remaining := remaining[..row] + remaining[row + 1..];
      lim := row;
      k := k + 1;
    }
    forall m | 0 <= m < |order|
      ensures order[m] >= lim
    {
      assert m == k - 1 || order[m] > order[k - 1];
    }
    assert forall x :: 0 <= x < lim ==> x !in selection;
    KeepUnselectedRun(rows, selection, 0, lim);
  }

  /** The confirmation panel `finishEdits_` raises, if any. */
  datatype Prompt = NoPrompt | AskOne | AskMany(count: nat)

  /** `finishEdits_` as written: `answer` is the user's reply to the panel
      (true for "Yes"). The reply is stored in a variable that is never read,
      so the selected rows are removed whatever it is. */
  method FinishEdits(edits: seq<Doc>, selection: set<nat>, confirmOnFinish: bool, answer: bool)
    returns (remaining: seq<Doc>, prompt: Prompt)
    requires forall x :: x in selection ==> x < |edits|
    ensures remaining == Survivors(edits, selection)
    ensures |remaining| == |edits| - |selection|
    ensures selection == {} ==> remaining == edits
    ensures prompt != NoPrompt <==> selection != {} && confirmOnFinish
    ensures prompt == AskOne <==> confirmOnFinish && |selection| == 1
    ensures prompt.AskMany? ==> prompt.count == |selection| && prompt.count >= 2
  {
    remaining := edits;
    prompt := NoPrompt;
    var selected := |selection|;
    if selected != 0 {
      var perform := true;
      if confirmOnFinish {
        prompt := if selected == 1 then AskOne else AskMany(selected);
        perform := answer;
      }
      remaining := DeleteSelectedRows(edits, selection);
    } else {
      SurvivorsOfNothing(edits);
    }
    SurvivorsLength(edits, selection);
  }

  /** The input on which the as-written `finishEdits_` departs from its
      confirmation panel: confirmation is on, the user is asked about the one
      selected row and answers "Cancel", and the row is removed all the same. */
  method CancelStillRemoves(d: Doc) returns (remaining: seq<Doc>, prompt: Prompt)
    ensures prompt == AskOne
    ensures remaining == []
  {
    remaining, prompt := FinishEdits([d], {0}, true, false);
  }

  /** `finishEdits_` as its confirmation panel intends: a "Cancel" reply keeps
      every row; otherwise the selected rows are removed. */
  method FinishEditsConfirmed(edits: seq<Doc>, selection: set<nat>, confirmOnFinish: bool, answer: bool)
    returns (remaining: seq<Doc>, prompt: Prompt)
    requires forall x :: x in selection ==> x < |edits|
    ensures confirmOnFinish && !answer ==> remaining == edits
    ensures !(confirmOnFinish && !answer) ==> remaining == Survivors(edits, selection)
    ensures selection == {} ==> remaining == edits
    ensures prompt != NoPrompt <==> selection != {} && confirmOnFinish
    ensures prompt == AskOne <==> confirmOnFinish && |selection| == 1
    ensures prompt.AskMany? ==> prompt.count == |selection| && prompt.count >= 2
  {
    remaining := edits;
    prompt := NoPrompt;
    var selected := |selection|;
    if selected != 0 {
      var perform := true;
      if confirmOnFinish {
        prompt := if selected == 1 then AskOne else AskMany(selected);
        perform := answer;
      }
      if perform {
        remaining := DeleteSelectedRows(edits, selection);
      }
    } else {
      SurvivorsOfNothing(edits);
    }
  }

  // ---------------------------------------------------------------------
  // Opening a document: the lock decision

  /** The prefix a borrowed lock token is given. */
  const LockTokenPrefix: string := "opaquelocktoken:"

  /** Python truth of `metadata.get(key)`: present and not the empty string. */
  predicate Truthy(metadata: map<string, string>, key: string)
  {
    key in metadata && metadata[key] != ""
  }

  /** What `openDocument_` decides before handing the file to the editor: the
      document with its possibly borrowed lock token, whether the borrow panel
      is raised, whether it falls into the `finishEdits_` call (taken when locks
      are on but the document carries no lock token), and whether `lock()` is called. */
  datatype OpenPlan = OpenPlan(doc: Doc, askedToBorrow: bool, finishesEdits: bool, locks: bool)

  /** `openDocument_` up to the editor launch; `consent` is the reply to the
      "Borrow Lock?" panel, consulted only when the panel is raised. */
  function PlanOpen(store: Store, doc: Doc, consent: bool): (p: OpenPlan)
    ensures p.locks <==> BoolForKey(store, "use_locks")
    ensures p.askedToBorrow <==>
              && BoolForKey(store, "use_locks")
              && Truthy(doc.metadata, "lock-token")
              && !BoolForKey(store, "always_borrow_locks")
              && !Truthy(doc.metadata, "borrow_lock")
    ensures p.finishesEdits <==> BoolForKey(store, "use_locks") && !Truthy(doc.metadata, "lock-token")
    ensures BorrowsLock(store, doc, consent) ==>
              p.doc == doc.(lockToken := Some(LockTokenPrefix + doc.metadata["lock-token"]))
    ensures !BorrowsLock(store, doc, consent) ==> p.doc == doc
  {
    if BoolForKey(store, "use_locks") then
      var locks := true;
      if Truthy(doc.metadata, "lock-token") then
        var asked := !BoolForKey(store, "always_borrow_locks") && !Truthy(doc.metadata, "borrow_lock");
        if BoolForKey(store, "always_borrow_locks") || Truthy(doc.metadata, "borrow_lock") || consent then
          OpenPlan(doc.(lockToken := Some(LockTokenPrefix + doc.metadata["lock-token"])), asked, false, locks)
        else
          OpenPlan(doc, asked, false, locks)
      else
        OpenPlan(doc, false, true, locks)
    else
      OpenPlan(doc, false, false, false)
  }

  /** The three conditions under which the existing lock is borrowed: locks are
      in use, the server reported a lock token, and one of the always-borrow
      preference, the document's borrow hint or the user's consent holds. */
  ghost predicate BorrowsLock(store: Store, doc: Doc, consent: bool)
  {
    && BoolForKey(store, "use_locks")
    && Truthy(doc.metadata, "lock-token")
    && (BoolForKey(store, "always_borrow_locks") || Truthy(doc.metadata, "borrow_lock") || consent)
  }

  /** When the borrow panel is not raised, the user's reply cannot change the outcome. */
  lemma ConsentOnlyWhenAsked(store: Store, doc: Doc)
    ensures !PlanOpen(store, doc, true).askedToBorrow ==>
              PlanOpen(store, doc, true) == PlanOpen(store, doc, false)
  {
  }
}

=== FILE: HelperApps.dfy ===
/** The preference window's helper-applications table: the rows built from
    the stored `helper_apps` dictionary when the window is created, the
    add/remove buttons, the cell accessors the table view calls, and the merge
    of the rows back into the dictionary when preferences are saved. */
module HelperApps {
  import opened Wrappers
  import opened Values
  import opened Decimal

  /** One table row: cell values keyed by column identifier. */
  type Row = map<string, Value>

  const TypeColumn: string := "type"
  const ExtensionColumn: string := "extension"
  const EditorColumn: string := "editor"

  /** Every row has the three columns the table shows. */
  predicate HasColumns(rows: seq<Row>)
  {
    forall i :: 0 <= i < |rows| ==>
      TypeColumn in rows[i] && ExtensionColumn in rows[i] && EditorColumn in rows[i]
  }

  // ---------------------------------------------------------------------
  // Adding and removing rows

  /** The row the "+" button adds when the table already has `n` rows. */
  function PlaceholderRow(n: nat): Row
  {
    map[TypeColumn := Str("Type " + Format(n)),
        ExtensionColumn := Str("Ext " + Format(n)),
        EditorColumn := Str("Editor " + Format(n))]
  }

  /** `addHelper_`: appends one placeholder row numbered by the previous row
      count; the existing rows are untouched. */
  function AddHelper(rows: seq<Row>): (r: seq<Row>)
    ensures |r| == |rows| + 1
    ensures r[..|rows|] == rows
    ensures r[|rows|].Keys == {TypeColumn, ExtensionColumn, EditorColumn}
    ensures r[|rows|][TypeColumn] == Str("Type " + Format(|rows|))
    ensures r[|rows|][ExtensionColumn] == Str("Ext " + Format(|rows|))
    ensures r[|rows|][EditorColumn] == Str("Editor " + Format(|rows|))
    ensures HasColumns(rows) ==> HasColumns(r)
  {
    rows + [PlaceholderRow(|rows|)]
  }

  /** Placeholder rows added at different table sizes carry different type labels. */
  lemma PlaceholderTypesDiffer(m: nat, n: nat)
    requires m != n
    ensures PlaceholderRow(m)[TypeColumn] != PlaceholderRow(n)[TypeColumn]
  {
    var tm := "Type " + Format(m);
    var tn := "Type " + Format(n);
    if tm == tn {
      assert Format(m) == tm[5..] == tn[5..] == Format(n);
      FormatInjective(m, n);
    }
  }

  /** `removeHelper_`: `selected` is the table's selected row, -1 when none.
      With no selection nothing changes; otherwise exactly that row goes and
      the others keep their order. */
  function RemoveHelper(rows: seq<Row>, selected: int): (r: seq<Row>)
    requires -1 <= selected < |rows|
    ensures selected == -1 ==> r == rows
    ensures selected != -1 ==>
              && |r| == |rows| - 1
              && (forall i :: 0 <= i < selected ==> r[i] == rows[i])
              && (forall i :: selected <= i < |r| ==> r[i] == rows[i + 1])
    ensures HasColumns(rows) ==> HasColumns(r)
  {
    if selected == -1 then rows else rows[..selected] + rows[selected + 1..]
  }

  /** Removing the row just added restores the table. */
  lemma RemoveUndoesAdd(rows: seq<Row>)
    ensures RemoveHelper(AddHelper(rows), |rows|) == rows
  {
  }

  // ---------------------------------------------------------------------
  // Cell accessors

  /** `tableView_objectValueForTableColumn_row_`: the cell's value, or the
      empty string for a column the row lacks. */
  function ObjectValue(rows: seq<Row>, column: string, row: nat): (v: Value)
    requires row < |rows|
    ensures column in rows[row] ==> v == rows[row][column]
    ensures column !in rows[row] ==> v == Str("")
  {
    GetOrDefault(rows[row], column, Str(""))
  }

  /** `tableView_setObjectValue_forTableColumn_row_`: stores `value` in one
      cell; every other cell of every row is unchanged. */
  function SetObjectValue(rows: seq<Row>, value: Value, column: string, row: nat): (r: seq<Row>)
    requires row < |rows|
    ensures |r| == |rows|
    ensures r[row].Keys == rows[row].Keys + {column}
    ensures r[row][column] == value
    ensures forall c :: c in rows[row] && c != column ==> r[row][c] == rows[row][c]
    ensures forall i :: 0 <= i < |rows| && i != row ==> r[i] == rows[i]
    ensures HasColumns(rows) ==> HasColumns(r)
  {
    rows[row := rows[row][column := value]]
  }

  /** Reading a cell just written gives the value written. */
  lemma ReadAfterWrite(rows: seq<Row>, value: Value, column: string, row: nat)
    requires row < |rows|
    ensures ObjectValue(SetObjectValue(rows, value, column, row), column, row) == value
  {
  }

  /** Writing a cell does not change what any other cell reads as. */
  lemma WriteLeavesOtherCells(rows: seq<Row>, value: Value, column: string, row: nat, otherColumn: string, otherRow: nat)
    requires row < |rows| && otherRow < |rows|
    requires otherRow != row || otherColumn != column
    ensures ObjectValue(SetObjectValue(rows, value, column, row), otherColumn, otherRow)
            == ObjectValue(rows, otherColumn, otherRow)
  {
  }

  /** Writing back the value a present cell reads as leaves the table unchanged. */
  lemma WriteWhatWasRead(rows: seq<Row>, column: string, row: nat)
    requires row < |rows| && column in rows[row]
    ensures SetObjectValue(rows, ObjectValue(rows, column, row), column, row) == rows
  {
    assert rows[row][column := rows[row][column]] == rows[row];
  }

  // ---------------------------------------------------------------------
  // Loading the table when the window is created

  /** A `helper_apps` entry whose value is not a dictionary: `.get` on it raises. */
  datatype LoadError = EntryNotADictionary(helperType: string)

  /** The preference window's state after `init`. */
  datatype Panel = Panel(
    cleanupFiles: bool,
    confirmOnFinish: bool,
    useLocks: bool,
    alwaysBorrowLocks: bool,
    tempDir: string,
    helperApps: map<string, Value>,
    rows: seq<Row>)

  /** Every helper entry is a dictionary, as the window expects. */
  predicate EntriesAreDictionaries(helpers: map<string, Value>)
  {
    forall t :: t in helpers ==> helpers[t].Dict?
  }

  /** The temporary directory shown: the stored value as `stringForKey_`
      reads it (a number as its decimal text) unless that is absent or empty,
      and "/tmp" otherwise. */
  function TempDir(store: Store): (dir: string)
    ensures dir != ""
    ensures StringForKey(store, "temp_dir").Some? && StringForKey(store, "temp_dir").value != "" ==>
              dir == StringForKey(store, "temp_dir").value
    ensures !(StringForKey(store, "temp_dir").Some? && StringForKey(store, "temp_dir").value != "") ==>
              dir == "/tmp"
  {
    match StringForKey(store, "temp_dir")
    case Some(s) => if s != "" then s else "/tmp"
    case None => "/tmp"
  }

  /** The row built for helper type `t` from its dictionary entry, with a
      missing extension or editor shown as the empty string. */
  function LoadedRow(t: string, entry: map<string, Value>): Row
  {
    map[TypeColumn := Str(t),
        ExtensionColumn := GetOrDefault(entry, ExtensionColumn, Str("")),
        EditorColumn := GetOrDefault(entry, EditorColumn, Str(""))]
  }

  /** The row-building loop of `init`, visiting the helper types in `order`. */
  function LoadRows(helpers: map<string, Value>, order: seq<string>): (r: Result<seq<Row>, LoadError>)
    requires forall t :: t in order ==> t in helpers
    ensures r.Failure? <==> exists i :: 0 <= i < |order| && !helpers[order[i]].Dict?
    ensures r.Success? ==>
              && |r.value| == |order|
              && forall i :: 0 <= i < |order| ==>
                   helpers[order[i]].Dict? && r.value[i] == LoadedRow(order[i], helpers[order[i]].entries)
  {
    if |order| == 0 then Success([])
    else match helpers[order[0]]
      case Dict(entry) =>
        (match LoadRows(helpers, order[1..])
         case Failure(e) => Failure(e)
         case Success(rest) => Success([LoadedRow(order[0], entry)] + rest))
      case _ => Failure(EntryNotADictionary(order[0]))
  }

  /** `init`: reads the flags, the temporary directory and `helper_apps`, and
      builds one row per helper type, visiting the types in `order`. */
  function LoadPanel(store: Store, order: seq<string>): (r: Result<Panel, LoadError>)
    requires EnumeratesKeys(order, HelperAppsOf(store))
    ensures r.Failure? <==> exists t :: t in HelperAppsOf(store) && !HelperAppsOf(store)[t].Dict?
    ensures r.Success? ==>
              && r.value.cleanupFiles == BoolForKey(store, "cleanup_files")
              && r.value.confirmOnFinish == BoolForKey(store, "confirm_on_finish")
              && r.value.useLocks == BoolForKey(store, "use_locks")
              && r.value.alwaysBorrowLocks == BoolForKey(store, "always_borrow_locks")
              && r.value.tempDir == TempDir(store)
              && r.value.helperApps == HelperAppsOf(store)
              && r.value.rows == LoadRows(HelperAppsOf(store), order).value
  {
    var helpers := HelperAppsOf(store);
    match LoadRows(helpers, order)
    case Failure(e) => Failure(e)
    case Success(rows) =>
      Success(Panel(
        BoolForKey(store, "cleanup_files"),
        BoolForKey(store, "confirm_on_finish"),
        BoolForKey(store, "use_locks"),
        BoolForKey(store, "always_borrow_locks"),
        TempDir(store),
        helpers,
        rows))
  }

  /** Loading gives exactly one row per helper type, each with the three
      columns, the type held as a string. */
  lemma LoadOneRowPerType(store: Store, order: seq<string>)
    requires EnumeratesKeys(order, HelperAppsOf(store))
    requires EntriesAreDictionaries(HelperAppsOf(store))
    ensures LoadPanel(store, order).Success?
    ensures var rows := LoadPanel(store, order).value.rows;
            && HasColumns(rows)
            && (forall i :: 0 <= i < |rows| ==> rows[i][TypeColumn].Str?)
            && (forall t :: t in HelperAppsOf(store) <==> NamesType(rows, t))
            && (forall i, j :: 0 <= i < j < |rows| ==> rows[i][TypeColumn] != rows[j][TypeColumn])
  {
    var helpers := HelperAppsOf(store);
    LoadedTypes(helpers, order);
    assert LoadPanel(store, order).value.rows == LoadRows(helpers, order).value;
  }

  /** The rows built from `helpers` name each helper type exactly once. */
  lemma LoadedTypes(helpers: map<string, Value>, order: seq<string>)
    requires EnumeratesKeys(order, helpers)
    requires EntriesAreDictionaries(helpers)
    ensures LoadRows(helpers, order).Success?
    ensures var rows := LoadRows(helpers, order).value;
            && HasColumns(rows)
            && (forall i :: 0 <= i < |rows| ==> rows[i][TypeColumn].Str?)
            && (forall t :: t in helpers <==> NamesType(rows, t))
            && (forall i, j :: 0 <= i < j < |rows| ==> rows[i][TypeColumn] != rows[j][TypeColumn])
  {
    LoadedRowsShape(helpers, order);
    LoadedNames(helpers, order);
    var rows := LoadRows(helpers, order).value;
    forall i, j | 0 <= i < j < |rows|
      ensures rows[i][TypeColumn] != rows[j][TypeColumn]
    {
      assert order[i] != order[j];
    }
  }

  /** The rows built from `helpers` name the helper types and no others. */
  lemma LoadedNames(helpers: map<string, Value>, order: seq<string>)
    requires EnumeratesKeys(order, helpers)
    requires EntriesAreDictionaries(helpers)
    ensures LoadRows(helpers, order).Success?
    ensures forall t :: t in helpers <==> NamesType(LoadRows(helpers, order).value, t)
  {
    LoadedRowsShape(helpers, order);
    var rows := LoadRows(helpers, order).value;
    forall t | t in helpers
      ensures NamesType(rows, t)
    {
      var i :| 0 <= i < |order| && order[i] == t;
      assert TypeColumn in rows[i] && rows[i][TypeColumn] == Str(t);
    }
    forall t | NamesType(rows, t)
      ensures t in helpers
    {
      var i :| 0 <= i < |rows| && TypeColumn in rows[i] && rows[i][TypeColumn] == Str(t);
      assert order[i] == t;
    }
  }

  // ---------------------------------------------------------------------
  // Saving: merging the rows back into helper_apps

  /** A row the merge cannot store: it lacks a column (`KeyError`), or its type
      is not a string, which a preference dictionary cannot use as a key. */
  datatype SaveError = MissingColumn(column: string) | TypeNotString

  /** The dictionary entry a row is saved as. */
  function Entry(row: Row): Value
    requires EditorColumn in row && ExtensionColumn in row
  {
    Dict(map[EditorColumn := row[EditorColumn], ExtensionColumn := row[ExtensionColumn]])
  }

  /** A row the merge can store. */
  predicate Savable(row: Row)
  {
    EditorColumn in row && ExtensionColumn in row && TypeColumn in row && row[TypeColumn].Str?
  }

  /** Some row of `rows` has type `t`. */
  predicate NamesType(rows: seq<Row>, t: string)
  {
    exists i :: 0 <= i < |rows| && TypeColumn in rows[i] && rows[i][TypeColumn] == Str(t)
  }

  /** A non-empty table names a type when its first row or one of the rest does. */
  lemma NamesTypeCons(rows: seq<Row>, t: string)
    requires |rows| > 0
    ensures NamesType(rows, t) <==>
              (TypeColumn in rows[0] && rows[0][TypeColumn] == Str(t)) || NamesType(rows[1..], t)
  {
    if NamesType(rows, t) {
      var i :| 0 <= i < |rows| && TypeColumn in rows[i] && rows[i][TypeColumn] == Str(t);
      if i > 0 { assert rows[1..][i - 1] == rows[i]; }
    }
    if NamesType(rows[1..], t) {
      var i :| 0 <= i < |rows[1..]| && TypeColumn in rows[1..][i] && rows[1..][i][TypeColumn] == Str(t);
      assert rows[i + 1] == rows[1..][i];
    }
  }

  /** The merge loop of `savePreferences_`: each row, in order, stores its
      editor and extension under its type. It fails at the first row it
      cannot store; otherwise the types are the old ones plus those the rows
      name. */
  function MergeRows(helpers: map<string, Value>, rows: seq<Row>): (r: Result<map<string, Value>, SaveError>)
    ensures r.Success? <==> forall i :: 0 <= i < |rows| ==> Savable(rows[i])
    ensures r.Success? ==> forall t :: t in r.value <==> t in helpers || NamesType(rows, t)
    decreases |rows|
  {
    if |rows| == 0 then Success(helpers)
    else
      var row := rows[0];
      if EditorColumn !in row then Failure(MissingColumn(EditorColumn))
      else if ExtensionColumn !in row then Failure(MissingColumn(ExtensionColumn))
      else if TypeColumn !in row then Failure(MissingColumn(TypeColumn))
      else match row[TypeColumn]
        case Str(t) =>
          assert forall t' :: NamesType(rows, t') <==> t' == t || NamesType(rows[1..], t') by {
            forall t' ensures NamesType(rows, t') <==> t' == t || NamesType(rows[1..], t') {
              NamesTypeCons(rows, t');
            }
          }
          MergeRows(helpers[t := Entry(row)], rows[1..])
        case _ => Failure(TypeNotString)
  }

  /** Entries no row names are kept by the merge, including those whose rows
      were removed from the table. */
  lemma {:induction false} MergeKeepsUnnamed(helpers: map<string, Value>, rows: seq<Row>, t: string)
    requires forall i :: 0 <= i < |rows| ==> Savable(rows[i])
    requires t in helpers
    requires !NamesType(rows, t)
    ensures t in MergeRows(helpers, rows).value
    ensures MergeRows(helpers, rows).value[t] == helpers[t]
    decreases |rows|
  {
    if |rows| > 0 {
      var row := rows[0];
      assert Savable(row);
      MergeKeepsUnnamed(helpers[row[TypeColumn].s := Entry(row)], rows[1..], t);
    }
  }

  /** A row no later row shares a type with decides its type's entry: a later
      row with the same type overwrites an earlier one. */
  lemma {:induction false} MergeLastRowWins(helpers: map<string, Value>, rows: seq<Row>, i: nat)
    requires forall k :: 0 <= k < |rows| ==> Savable(rows[k])
    requires i < |rows| && Savable(rows[i])
    requires !NamesType(rows[i + 1..], rows[i][TypeColumn].s)
    ensures rows[i][TypeColumn].s in MergeRows(helpers, rows).value
    ensures MergeRows(helpers, rows).value[rows[i][TypeColumn].s] == Entry(rows[i])
    decreases |rows|
  {
    var row := rows[0];
    assert Savable(row);
    var next := helpers[row[TypeColumn].s := Entry(row)];
    if i == 0 {
      MergeKeepsUnnamed(next, rows[1..], row[TypeColumn].s);
    } else {
      assert rows[1..][i - 1 + 1..] == rows[i + 1..];
      MergeLastRowWins(next, rows[1..], i - 1);
    }
  }

  /** The dictionary the merge loop leaves in the window: it writes into the
      window's own `helper_apps` in place, so every row before the first one
      it cannot store has been written even when the merge fails. Helper
      names are strings here, so a row whose type is not a string stops the
      merge, where the source would still write it and the rows after it. */
  function MergedSoFar(helpers: map<string, Value>, rows: seq<Row>): (m: map<string, Value>)
    ensures helpers.Keys <= m.Keys
    ensures MergeRows(helpers, rows).Success? ==> m == MergeRows(helpers, rows).value
    decreases |rows|
  {
    if |rows| == 0 then helpers
    else
      var row := rows[0];
      if !Savable(row) then helpers
      else MergedSoFar(helpers[row[TypeColumn].s := Entry(row)], rows[1..])
  }

  /** What `savePreferences_` leaves behind: the store, the window (whose
      `helper_apps` the merge has updated in place) and the failure that
      stopped it, if any. The flags and the temporary directory are written
      before the merge, so they are in the store even when the merge fails. */
  datatype SaveOutcome = SaveOutcome(store: Store, panel: Panel, error: Option<SaveError>)

  /** The flag and temporary-directory writes `savePreferences_` makes before
      the merge; every other key keeps its value. */
  function WriteFlags(store: Store, panel: Panel): (r: Store)
    ensures "cleanup_files" in r && r["cleanup_files"] == Bool(panel.cleanupFiles)
    ensures "confirm_on_finish" in r && r["confirm_on_finish"] == Bool(panel.confirmOnFinish)
    ensures "use_locks" in r && r["use_locks"] == Bool(panel.useLocks)
    ensures "always_borrow_locks" in r && r["always_borrow_locks"] == Bool(panel.alwaysBorrowLocks)
    ensures "temp_dir" in r && r["temp_dir"] == Str(panel.tempDir)
    ensures forall k :: k !in FlagKeys ==> (k in r <==> k in store)
    ensures forall k :: k in store && k !in FlagKeys ==> r[k] == store[k]
  {
    store + map[
      "cleanup_files" := Bool(panel.cleanupFiles),
      "confirm_on_finish" := Bool(panel.confirmOnFinish),
      "use_locks" := Bool(panel.useLocks),
      "always_borrow_locks" := Bool(panel.alwaysBorrowLocks),
      "temp_dir" := Str(panel.tempDir)]
  }

  /** The keys written before the merge. */
  const FlagKeys: set<string> :=
    {"cleanup_files", "confirm_on_finish", "use_locks", "always_borrow_locks", "temp_dir"}

  /** `savePreferences_`: the flags and the temporary directory are stored,
      then the rows are merged into the window's `helper_apps`, which is
      stored. A merge failure leaves the flag writes in place and the stored
      `helper_apps` as it was, while the window keeps what was merged before
      the failing row. */
  function SavePreferences(store: Store, panel: Panel): (out: SaveOutcome)
    ensures forall k :: k in FlagKeys ==> k in out.store && out.store[k] == WriteFlags(store, panel)[k]
    ensures out.error.None? <==> MergeRows(panel.helperApps, panel.rows).Success?
    ensures out.error.None? ==>
              && "helper_apps" in out.store
              && out.store["helper_apps"] == Dict(MergeRows(panel.helperApps, panel.rows).value)
              && out.store["helper_apps"] == Dict(out.panel.helperApps)
    ensures out.error.Some? ==> ObjectForKey(out.store, "helper_apps") == ObjectForKey(store, "helper_apps")
    ensures forall k :: k in store && k !in SavedKeys ==> k in out.store && out.store[k] == store[k]
    ensures forall k :: k !in SavedKeys ==> (k in out.store <==> k in store)
    ensures out.error.Some? ==> ("helper_apps" in out.store <==> "helper_apps" in store)
    ensures out.error.Some? && "helper_apps" in store ==> out.store["helper_apps"] == store["helper_apps"]
    ensures out.panel == panel.(helperApps := MergedSoFar(panel.helperApps, panel.rows))
    ensures panel.helperApps.Keys <= out.panel.helperApps.Keys
  {
    var flagged := WriteFlags(store, panel);
    var window := panel.(helperApps := MergedSoFar(panel.helperApps, panel.rows));
    match MergeRows(panel.helperApps, panel.rows)
    case Failure(e) => SaveOutcome(flagged, window, Some(e))
    case Success(h) => SaveOutcome(flagged["helper_apps" := Dict(h)], window, None)
  }

  /** The window outlives a save, so a later save starts from the dictionary
      an earlier one stored: every type stored by the first save is stored by
      the second, whatever rows were removed or edited in between, and a type
      the later table no longer names keeps the entry the first save gave it. */
  lemma SavedTypesPersist(store: Store, panel: Panel, rows: seq<Row>)
    requires forall i :: 0 <= i < |panel.rows| ==> Savable(panel.rows[i])
    requires forall i :: 0 <= i < |rows| ==> Savable(rows[i])
    ensures var first := SavePreferences(store, panel);
            var second := SavePreferences(first.store, first.panel.(rows := rows));
            && first.error.None? && second.error.None?
            && first.store["helper_apps"].Dict? && second.store["helper_apps"].Dict?
            && (forall t :: t in first.store["helper_apps"].entries ==> t in second.store["helper_apps"].entries)
            && (forall t :: t in first.store["helper_apps"].entries && !NamesType(rows, t) ==>
                  second.store["helper_apps"].entries[t] == first.store["helper_apps"].entries[t])
  {
    var first := SavePreferences(store, panel);
    var stored := first.panel.helperApps;
    forall t | t in stored && !NamesType(rows, t)
      ensures MergeRows(stored, rows).value[t] == stored[t]
    {
      MergeKeepsUnnamed(stored, rows, t);
    }
  }

  /** When the merge fails, the window holds exactly what merging the rows
      before the first unstorable one gives: those rows have been written,
      the failing row and every later one have not. */
  lemma {:induction false} MergedSoFarIsPrefixMerge(helpers: map<string, Value>, rows: seq<Row>, k: nat)
    requires k <= |rows|
    requires forall j :: 0 <= j < k ==> Savable(rows[j])
    requires k == |rows| || !Savable(rows[k])
    ensures MergeRows(helpers, rows[..k]).Success?
    ensures MergedSoFar(helpers, rows) == MergeRows(helpers, rows[..k]).value
    decreases |rows|
  {
    if k == 0 {
      assert rows[..0] == [];
    } else {
      var row := rows[0];
      assert Savable(row);
      var next := helpers[row[TypeColumn].s := Entry(row)];
      assert rows[1..][..k - 1] == rows[..k][1..];
      assert forall j :: 0 <= j < k - 1 ==> rows[1..][j] == rows[j + 1];
      MergedSoFarIsPrefixMerge(next, rows[1..], k - 1);
      assert rows[..k][0] == row;
    }
  }

  /** Saving a placeholder row, removing it and saving again leaves its type
      stored: removing a row never deletes a saved helper. */
  lemma RemovedRowStaysSaved()
    ensures var panel := Panel(false, false, false, false, "/tmp", map[], [PlaceholderRow(0)]);
            var first := SavePreferences(map[], panel);
            var second := SavePreferences(first.store, first.panel.(rows := RemoveHelper(first.panel.rows, 0)));
            && second.error.None?
            && second.store["helper_apps"].Dict?
            && "Type 0" in second.store["helper_apps"].entries
  {
    var panel := Panel(false, false, false, false, "/tmp", map[], [PlaceholderRow(0)]);
    assert Savable(panel.rows[0]) && panel.rows[0][TypeColumn] == Str("Type 0");
    assert NamesType(panel.rows, "Type 0");
    SavedTypesPersist(map[], panel, []);
  }

  /** The keys `savePreferences_` writes (its `save_interval` write is not modelled). */
  const SavedKeys: set<string> := FlagKeys + {"helper_apps"}

  /** What a stored helper entry reads back as after one load and save: its
      editor and extension, each the empty string where it was missing. */
  function Normalized(entry: map<string, Value>): Value
  {
    Dict(map[EditorColumn := GetOrDefault(entry, EditorColumn, Str("")),
             ExtensionColumn := GetOrDefault(entry, ExtensionColumn, Str(""))])
  }

  /** The rows loaded from `helpers` are savable, one per helper type, in `order`. */
  lemma LoadedRowsShape(helpers: map<string, Value>, order: seq<string>)
    requires EnumeratesKeys(order, helpers)
    requires EntriesAreDictionaries(helpers)
    ensures LoadRows(helpers, order).Success?
    ensures var rows := LoadRows(helpers, order).value;
            && |rows| == |order|
            && forall i :: 0 <= i < |rows| ==>
                 && Savable(rows[i])
                 && rows[i][TypeColumn] == Str(order[i])
                 && helpers[order[i]].Dict?
                 && Entry(rows[i]) == Normalized(helpers[order[i]].entries)
  {
    assert forall i :: 0 <= i < |order| ==> helpers[order[i]].Dict?;
    var rows := LoadRows(helpers, order).value;
    forall i | 0 <= i < |rows|
      ensures && Savable(rows[i])
              && rows[i][TypeColumn] == Str(order[i])
              && helpers[order[i]].Dict?
              && Entry(rows[i]) == Normalized(helpers[order[i]].entries)
    {
      LoadedRowEntry(order[i], helpers[order[i]].entries);
    }
  }

  /** A loaded row can be saved, and is saved as its entry's editor and extension. */
  lemma LoadedRowEntry(t: string, entry: map<string, Value>)
    ensures Savable(LoadedRow(t, entry))
    ensures LoadedRow(t, entry)[TypeColumn] == Str(t)
    ensures Entry(LoadedRow(t, entry)) == Normalized(entry)
  {
    var row := LoadedRow(t, entry);
    assert row[EditorColumn] == GetOrDefault(entry, EditorColumn, Str(""));
    assert row[ExtensionColumn] == GetOrDefault(entry, ExtensionColumn, Str(""));
  }

  /** Merging the rows loaded from `helpers` back into `helpers` adds no type. */
  lemma MergeLoadedKeys(helpers: map<string, Value>, order: seq<string>)
    requires EnumeratesKeys(order, helpers)
    requires EntriesAreDictionaries(helpers)
    ensures var merged := MergeRows(helpers, LoadRows(helpers, order).value);
            merged.Success? && merged.value.Keys == helpers.Keys
  {
    var rows := LoadRows(helpers, order).value;
    LoadedRowsShape(helpers, order);
    var merged := MergeRows(helpers, rows);
    assert merged.Success?;
    forall t | NamesType(rows, t)
      ensures t in helpers
    {
      var i :| 0 <= i < |rows| && TypeColumn in rows[i] && rows[i][TypeColumn] == Str(t);
      assert order[i] == t;
    }
  }

  /** In a table whose rows have distinct types, no row after row `i` names row `i`'s type. */
  lemma NoLaterRowOfType(rows: seq<Row>, i: nat)
    requires HasColumns(rows)
    requires forall a, b :: 0 <= a < b < |rows| ==> rows[a][TypeColumn] != rows[b][TypeColumn]
    requires i < |rows| && rows[i][TypeColumn].Str?
    ensures !NamesType(rows[i + 1..], rows[i][TypeColumn].s)
  {
    var later := rows[i + 1..];
    forall j | 0 <= j < |later|
      ensures later[j][TypeColumn] != rows[i][TypeColumn]
    {
      assert later[j] == rows[i + 1 + j];
    }
  }

  /** Merging the rows loaded from `helpers` back into `helpers` replaces
      each entry by its normalized form. */
  lemma MergeLoadedEntry(helpers: map<string, Value>, order: seq<string>, t: string)
    requires EnumeratesKeys(order, helpers)
    requires EntriesAreDictionaries(helpers)
    requires t in helpers
    ensures var merged := MergeRows(helpers, LoadRows(helpers, order).value);
            && merged.Success? && t in merged.value
            && helpers[t].Dict? && merged.value[t] == Normalized(helpers[t].entries)
  {
    LoadedRowsShape(helpers, order);
    LoadedTypes(helpers, order);
    var rows := LoadRows(helpers, order).value;
    var i :| 0 <= i < |order| && order[i] == t;
    NoLaterRowOfType(rows, i);
    MergeLastRowWins(helpers, rows, i);
  }

  /** Opening the preference window and closing it without edits rewrites
      `helper_apps` with the same types, each keeping its editor and
      extension, missing ones becoming the empty string. */
  lemma LoadThenSave(store: Store, order: seq<string>)
    requires EnumeratesKeys(order, HelperAppsOf(store))
    requires EntriesAreDictionaries(HelperAppsOf(store))
    ensures var out := SavePreferences(store, LoadPanel(store, order).value);
            && out.error.None?
            && out.store["helper_apps"].Dict?
            && out.store["helper_apps"].entries.Keys == HelperAppsOf(store).Keys
            && forall t :: t in HelperAppsOf(store) ==>
                 HelperAppsOf(store)[t].Dict? &&
                 out.store["helper_apps"].entries[t] == Normalized(HelperAppsOf(store)[t].entries)
  {
    var helpers := HelperAppsOf(store);
    MergeLoadedKeys(helpers, order);
    forall t | t in helpers
      ensures helpers[t].Dict?
      ensures MergeRows(helpers, LoadRows(helpers, order).value).value[t] == Normalized(helpers[t].entries)
    {
      MergeLoadedEntry(helpers, order, t);
    }
  }
}

=== FILE: IndexSets.dfy ===
/** The index set a table view reports for its selected rows, and the
    descending walk over it that the edit list uses when deleting rows. */
module IndexSets {
  import opened Wrappers

  /** `indexLessThanIndex_`: the greatest member below `v`, or None where
      the toolkit answers NSNotFound. */
  function IndexLessThan(s: set<nat>, v: nat): (r: Option<nat>)
    ensures r.Some? ==> r.value in s && r.value < v
    ensures r.Some? ==> forall x :: x in s && x < v ==> x <= r.value
    ensures r.None? ==> forall x :: x in s ==> x >= v
    decreases v
  {
    if v == 0 then None
    else if v - 1 in s then Some(v - 1)
    else IndexLessThan(s, v - 1)
  }

  /** `lastIndex`: the greatest member of a selection of rows below `rows`,
      or None for an empty selection. */
  function LastIndex(s: set<nat>, rows: nat): (r: Option<nat>)
    requires forall x :: x in s ==> x < rows
    ensures r.None? <==> s == {}
    ensures r.Some? ==> r.value in s && forall x :: x in s ==> x <= r.value
  {
    IndexLessThan(s, rows)
  }

  /** `iterNSIndexSet`: yields the members of a selection of rows (all below
      `rows`) starting from the largest, each one exactly once, in strictly
      decreasing order. */
  method IterIndexSet(s: set<nat>, rows: nat) returns (order: seq<nat>)
    requires forall x :: x in s ==> x < rows
    ensures forall x :: x in order <==> x in s
    ensures forall j, k :: 0 <= j < k < |order| ==> order[j] > order[k]
    ensures |order| > 0 ==> forall x :: x in s ==> x <= order[0]
  {
    order := [];
    var val := LastIndex(s, rows);
    ghost var lim: nat := rows;
    while val.Some?
      invariant lim <= rows
      invariant val == IndexLessThan(s, lim)
      invariant forall x :: x in order ==> x in s && x >= lim
      invariant forall x :: x in s && x >= lim ==> x in order
      invariant forall j, k :: 0 <= j < k < |order| ==> order[j] > order[k]
      invariant |order| > 0 ==> order[|order| - 1] == lim
      decreases lim
    {
      order := order + [val.value];
      lim := val.value;
      val := IndexLessThan(s, val.value);
    }
  }
}

=== FILE: PrefsUpgrade.dfy ===
/** The one-time migration of an older preference domain to the current key
    set: the seven preferences still in use are carried over, and every other
    top-level key (an old per-type helper entry) is folded into the
    `helper_apps` dictionary. `keep` is the set of preferences the fold leaves
    alone: the seven of the code as written, or those and `temp_dir`. */
module PrefsUpgrade {
  import opened Wrappers
  import opened Values

  /** The preferences the current version keeps. */
  const KeepKeys: set<string> := {
    "always_borrow_locks",
    "cleanup_files",
    "confirm_on_finish",
    "helper_apps",
    "save_interval",
    "use_locks",
    "version_check"
  }

  /** The preferences the current release stores: the kept ones and
      `temp_dir`, which the preference window writes but the kept list misses. */
  const CurrentKeys: set<string> := KeepKeys + {"temp_dir"}

  /** Why the fold raises at a stray key: its value is not a dictionary, so
      asking it for `has_key` raises, or it writes into a `helper_apps`
      dictionary that cannot be changed. */
  datatype UpgradeError = NotADictionary(key: string) | ReadOnlyHelpers(key: string)

  lemma PrefixCancel(p: string, a: string, b: string)
    ensures p + a == p + b ==> a == b
  {
    if p + a == p + b {
      assert a == (p + a)[|p|..];
      assert b == (p + b)[|p|..];
    }
  }

  /** The entries one stray key with dictionary value `entry` adds to
      `helper_apps`: the whole dictionary under the key itself when it names an
      editor, otherwise one `key/sub_key` entry per sub-key. */
  function Folded(key: string, entry: map<string, Value>): (m: map<string, Value>)
    ensures "editor" in entry ==> m == map[key := Dict(entry)]
    ensures "editor" !in entry ==>
              && (forall s :: s in entry ==> key + "/" + s in m && m[key + "/" + s] == entry[s])
              && (forall n :: n in m ==> exists s :: s in entry && n == key + "/" + s)
  {
    if "editor" in entry then map[key := Dict(entry)]
    else
      assert forall a, b :: key + "/" + a == key + "/" + b ==> a == b by {
        forall a, b ensures key + "/" + a == key + "/" + b ==> a == b {
          PrefixCancel(key + "/", a, b);
        }
      }
      map s | s in entry :: key + "/" + s := entry[s]
  }

  /** What the key `key` of the old domain writes into `helper_apps`: nothing
      for a preference in `keep` or a value that is not a dictionary. */
  function Writes(keep: set<string>, store: Store, key: string): map<string, Value>
    requires key in store
  {
    if key !in keep && store[key].Dict? then Folded(key, store[key].entries) else map[]
  }

  /** Every name any of `keys` writes into `helper_apps`. */
  ghost function Names(keep: set<string>, store: Store, keys: seq<string>): set<string>
    requires forall k :: k in keys ==> k in store
  {
    if |keys| == 0 then {} else Writes(keep, store, keys[0]).Keys + Names(keep, store, keys[1..])
  }

  /** Visiting `key` raises: it is not in `keep` and either holds something
      other than a dictionary or, when `helper_apps` is read-only, has
      something to write into it. */
  predicate Raises(keep: set<string>, readOnly: bool, store: Store, key: string)
    requires key in store
  {
    key !in keep && (!store[key].Dict? || (readOnly && Writes(keep, store, key) != map[]))
  }

  /** The folding loop of `upgradePrefs`, visiting the old domain's keys in
      `keys` order and writing into `helpers`, which `readOnly` says cannot be
      changed; it raises at the first key that `Raises`. */
  function FoldStray(keep: set<string>, readOnly: bool, helpers: map<string, Value>, store: Store, keys: seq<string>)
    : (r: Result<map<string, Value>, UpgradeError>)
    requires forall k :: k in keys ==> k in store
    ensures r.Failure? <==> exists i :: 0 <= i < |keys| && Raises(keep, readOnly, store, keys[i])
    ensures r.Success? ==> r.value.Keys == helpers.Keys + Names(keep, store, keys)
    ensures r.Success? ==>
              forall n :: n in helpers && n !in Names(keep, store, keys) ==> r.value[n] == helpers[n]
    ensures r.Success? && readOnly ==> r.value == helpers
    decreases |keys|
  {
    if |keys| == 0 then Success(helpers)
    else
      var key := keys[0];
      RaisesLater(keep, readOnly, store, keys);
      if key in keep then FoldStray(keep, readOnly, helpers, store, keys[1..])
      else match store[key]
        case Dict(entry) =>
          if readOnly && Folded(key, entry) != map[] then Failure(ReadOnlyHelpers(key))
          else
            assert readOnly ==> helpers + Folded(key, entry) == helpers;
            FoldStray(keep, readOnly, helpers + Folded(key, entry), store, keys[1..])
        case _ => Failure(NotADictionary(key))
  }

  /** Some key of `keys` raises exactly when the first does or a later one does. */
  lemma RaisesLater(keep: set<string>, readOnly: bool, store: Store, keys: seq<string>)
    requires 0 < |keys| && forall k :: k in keys ==> k in store
    ensures (exists i :: 0 <= i < |keys| && Raises(keep, readOnly, store, keys[i])) <==>
            Raises(keep, readOnly, store, keys[0]) ||
            exists i :: 0 <= i < |keys[1..]| && Raises(keep, readOnly, store, keys[1..][i])
  {
    if exists i :: 0 <= i < |keys| && Raises(keep, readOnly, store, keys[i]) {
      var i :| 0 <= i < |keys| && Raises(keep, readOnly, store, keys[i]);
      if i > 0 {
        assert keys[1..][i - 1] == keys[i];
      }
    }
    if exists i :: 0 <= i < |keys[1..]| && Raises(keep, readOnly, store, keys[1..][i]) {
      var i :| 0 <= i < |keys[1..]| && Raises(keep, readOnly, store, keys[1..][i]);
      assert keys[i + 1] == keys[1..][i];
    }
  }

  /** An entry of `helper_apps` holds what the last key to write that name wrote. */
  lemma {:induction false} LastWriterWins(keep: set<string>, helpers: map<string, Value>, store: Store, keys: seq<string>, n: string, i: nat)
    requires forall k :: k in keys ==> k in store
    requires i < |keys| && n in Writes(keep, store, keys[i])
    requires forall j :: i < j < |keys| ==> n !in Writes(keep, store, keys[j])
    requires FoldStray(keep, false, helpers, store, keys).Success?
    ensures n in FoldStray(keep, false, helpers, store, keys).value
    ensures FoldStray(keep, false, helpers, store, keys).value[n] == Writes(keep, store, keys[i])[n]
    decreases |keys|
  {
    if i == 0 {
      FirstWriterLast(keep, helpers, store, keys, n);
    } else {
      var rest := keys[1..];
      var next := helpers + Writes(keep, store, keys[0]);
      assert !Raises(keep, false, store, keys[0]);
      FoldStep(keep, helpers, store, keys);
      forall j | i - 1 < j < |rest|
        ensures n !in Writes(keep, store, rest[j])
      {
        assert rest[j] == keys[j + 1];
      }
      assert rest[i - 1] == keys[i];
      LastWriterWins(keep, next, store, rest, n, i - 1);
    }
  }

  /** The first key writes a name no later key writes: the fold keeps it. */
  lemma FirstWriterLast(keep: set<string>, helpers: map<string, Value>, store: Store, keys: seq<string>, n: string)
    requires forall k :: k in keys ==> k in store
    requires 0 < |keys| && n in Writes(keep, store, keys[0])
    requires forall j :: 0 < j < |keys| ==> n !in Writes(keep, store, keys[j])
    requires FoldStray(keep, false, helpers, store, keys).Success?
    ensures n in FoldStray(keep, false, helpers, store, keys).value
    ensures FoldStray(keep, false, helpers, store, keys).value[n] == Writes(keep, store, keys[0])[n]
  {
    var rest := keys[1..];
    var next := helpers + Writes(keep, store, keys[0]);
    assert !Raises(keep, false, store, keys[0]);
    FoldStep(keep, helpers, store, keys);
    forall j | 0 <= j < |rest|
      ensures n !in Writes(keep, store, rest[j])
    {
      assert rest[j] == keys[j + 1];
    }
    NotWrittenByAny(keep, store, rest, n);
    assert n in next && next[n] == Writes(keep, store, keys[0])[n];
  }


  /** A step of the fold that does not raise adds what the first key writes. */
  lemma FoldStep(keep: set<string>, helpers: map<string, Value>, store: Store, keys: seq<string>)
    requires |keys| > 0 && forall k :: k in keys ==> k in store
    requires keys[0] in keep || store[keys[0]].Dict?
    ensures FoldStray(keep, false, helpers, store, keys)
            == FoldStray(keep, false, helpers + Writes(keep, store, keys[0]), store, keys[1..])
  {
    if keys[0] in keep {
      assert helpers + Writes(keep, store, keys[0]) == helpers;
    }
  }

  /** A name none of `keys` writes is not among their names. */
  lemma {:induction false} NotWrittenByAny(keep: set<string>, store: Store, keys: seq<string>, n: string)
    requires forall k :: k in keys ==> k in store
    requires forall j :: 0 <= j < |keys| ==> n !in Writes(keep, store, keys[j])
    ensures n !in Names(keep, store, keys)
    decreases |keys|
  {
    if |keys| > 0 {
      NotWrittenByAny(keep, store, keys[1..], n);
    }
  }

  /** The old domain holds a `helper_apps` dictionary. `dictionaryForKey_`
      then hands back that stored dictionary, which cannot be changed; with
      none, the fold writes into a fresh Python dictionary. */
  predicate HelpersStored(store: Store)
  {
    DictionaryForKey(store, "helper_apps").Some?
  }

  /** The first loop of `upgradePrefs`: every preference of `keep` copied
      from the old domain, Null where it is absent. */
  function Kept(keep: set<string>, store: Store): (m: Store)
    ensures m.Keys == keep
    ensures forall k :: k in m ==> m[k] == ObjectForKey(store, k)
  {
    map k | k in keep :: ObjectForKey(store, k)
  }

  /** Every key of the old domain outside `keep` holds a dictionary. */
  predicate StraysAreDictionaries(keep: set<string>, store: Store)
  {
    forall k :: k in store && k !in keep ==> store[k].Dict?
  }

  /** `upgradePrefs` as written, given the order in which the old domain's keys
      are visited and the running version string. The stray entries are
      written straight into the stored `helper_apps` when there is one, so
      the migration raises at the first stray key that is not a dictionary or
      has anything to write into it; `temp_dir` counts as stray. On success
      the new domain has exactly the seven kept keys: each copied from the old
      domain (Null where absent), except `helper_apps`, which holds the folded
      dictionary, and `version_check`, which is the running version. */
  function Upgrade(store: Store, order: seq<string>, version: string): (r: Result<Store, UpgradeError>)
    requires EnumeratesKeys(order, store)
    ensures r.Failure? <==>
              exists i :: 0 <= i < |order| && Raises(KeepKeys, HelpersStored(store), store, order[i])
    ensures r.Success? ==> r.value.Keys == KeepKeys
    ensures r.Success? ==> r.value["version_check"] == Str(version)
    ensures r.Success? ==>
              forall k :: k in KeepKeys && k != "helper_apps" && k != "version_check" ==>
                r.value[k] == ObjectForKey(store, k)
    ensures r.Success? ==>
              r.value["helper_apps"] == Dict(FoldStray(KeepKeys, HelpersStored(store), HelperAppsOf(store), store, order).value)
    ensures r.Success? && HelpersStored(store) ==> r.value["helper_apps"] == store["helper_apps"]
  {
    var newPrefs := Kept(KeepKeys, store);
    match FoldStray(KeepKeys, HelpersStored(store), HelperAppsOf(store), store, order)
    case Failure(e) => Failure(e)
    case Success(helpers) =>
      var withHelpers := newPrefs["helper_apps" := Dict(helpers)];
      var withConfirm :=
        if "confirm_on_finish" !in withHelpers then withHelpers["confirm_on_finish" := Bool(true)]
        else withHelpers;
      Success(withConfirm["version_check" := Str(version)])
  }

  /** The input on which the `confirm_on_finish` default of the as-written
      migration should apply but does not: an old domain without that key
      migrates to Null rather than to true. */
  lemma ConfirmDefaultUnreachable(version: string)
    ensures Upgrade(map[], [], version).Success?
    ensures Upgrade(map[], [], version).value["confirm_on_finish"] == Null
    ensures UpgradeIntended(map[], [], version).value["confirm_on_finish"] == Bool(true)
  {
  }

  /** An old domain holding a `helper_apps` dictionary and one old editor
      entry: the as-written migration raises when it writes the entry into
      the stored dictionary, while the intended one folds it in. */
  lemma StoredHelpersReadOnly(version: string)
    ensures var store := map["helper_apps" := Dict(map[]), "html" := Dict(map["editor" := Str("vi")])];
            && Upgrade(store, ["helper_apps", "html"], version) == Failure(ReadOnlyHelpers("html"))
            && UpgradeIntended(store, ["helper_apps", "html"], version).Success?
            && UpgradeIntended(store, ["helper_apps", "html"], version).value["helper_apps"]
                 == Dict(map["html" := store["html"]])
  {
    var store := map["helper_apps" := Dict(map[]), "html" := Dict(map["editor" := Str("vi")])];
    assert "html" !in KeepKeys && "html" !in CurrentKeys;
    assert FoldStray(CurrentKeys, false, map[], store, ["helper_apps", "html"]).value == map["html" := store["html"]];
  }

  /** An old domain holding the `temp_dir` the preference window writes: the
      as-written migration takes it for an old helper entry and raises on
      its string value, while the intended one keeps it. */
  lemma StoredTempDirBlocksUpgrade(version: string)
    ensures var store := map["temp_dir" := Str("/tmp")];
            && Upgrade(store, ["temp_dir"], version) == Failure(NotADictionary("temp_dir"))
            && UpgradeIntended(store, ["temp_dir"], version).Success?
            && UpgradeIntended(store, ["temp_dir"], version).value["temp_dir"] == Str("/tmp")
  {
    assert "temp_dir" !in KeepKeys && "temp_dir" in CurrentKeys;
  }

  /** `upgradePrefs` as it evidently intends: `temp_dir` is kept with the
      other current preferences, the stray entries are folded into a fresh
      copy of `helper_apps`, and an old domain without `confirm_on_finish`
      migrates to true. It fails only at a stray key that is not a dictionary. */
  function UpgradeIntended(store: Store, order: seq<string>, version: string): (r: Result<Store, UpgradeError>)
    requires EnumeratesKeys(order, store)
    ensures r.Failure? <==>
              exists i :: 0 <= i < |order| && order[i] !in CurrentKeys && !store[order[i]].Dict?
    ensures r.Success? ==> r.value.Keys == CurrentKeys
    ensures r.Success? ==> r.value["version_check"] == Str(version)
    ensures r.Success? ==>
              r.value["confirm_on_finish"] ==
                (if "confirm_on_finish" in store then store["confirm_on_finish"] else Bool(true))
    ensures r.Success? ==>
              forall k :: k in CurrentKeys && k != "helper_apps" && k != "version_check" && k != "confirm_on_finish" ==>
                r.value[k] == ObjectForKey(store, k)
    ensures r.Success? ==>
              r.value["helper_apps"] == Dict(FoldStray(CurrentKeys, false, HelperAppsOf(store), store, order).value)
  {
    match FoldStray(CurrentKeys, false, HelperAppsOf(store), store, order)
    case Failure(e) => Failure(e)
    case Success(helpers) =>
      var withHelpers := Kept(CurrentKeys, store)["helper_apps" := Dict(helpers)];
      var withConfirm :=
        if "confirm_on_finish" !in store then withHelpers["confirm_on_finish" := Bool(true)]
        else withHelpers;
      Success(withConfirm["version_check" := Str(version)])
  }

  /** Folding with or without `temp_dir` among the kept keys is the same when
      no visited key is `temp_dir`. */
  lemma {:induction false} FoldWithoutTempDir(helpers: map<string, Value>, store: Store, keys: seq<string>)
    requires forall k :: k in keys ==> k in store
    requires "temp_dir" !in keys
    ensures FoldStray(KeepKeys, false, helpers, store, keys) == FoldStray(CurrentKeys, false, helpers, store, keys)
    decreases |keys|
  {
    if |keys| > 0 {
      var key := keys[0];
      assert key != "temp_dir";
      assert key in KeepKeys <==> key in CurrentKeys;
      var next := if key in KeepKeys || !store[key].Dict? then helpers else helpers + Folded(key, store[key].entries);
      assert "temp_dir" !in keys[1..];
      FoldWithoutTempDir(next, store, keys[1..]);
    }
  }

  /** Away from the inputs the findings name (a stored `helper_apps`, a stored
      `temp_dir`, a missing `confirm_on_finish`) the migration as written and
      as intended agree: they fail together, and on success they give every
      kept preference the same value. */
  lemma AsWrittenAgreesElsewhere(store: Store, order: seq<string>, version: string)
    requires EnumeratesKeys(order, store)
    requires !HelpersStored(store) && "temp_dir" !in store && "confirm_on_finish" in store
    ensures Upgrade(store, order, version).Success? <==> UpgradeIntended(store, order, version).Success?
    ensures Upgrade(store, order, version).Success? ==>
              forall k :: k in KeepKeys ==>
                Upgrade(store, order, version).value[k] == UpgradeIntended(store, order, version).value[k]
  {
    FoldWithoutTempDir(HelperAppsOf(store), store, order);
  }

  /** The intended migration fails exactly when some key of the old domain
      outside the current ones holds something other than a dictionary,
      whatever order the keys are visited in. */
  lemma UpgradeFailsOnlyOnStrays(store: Store, order: seq<string>, version: string)
    requires EnumeratesKeys(order, store)
    ensures UpgradeIntended(store, order, version).Success? <==> StraysAreDictionaries(CurrentKeys, store)
  {
    if !StraysAreDictionaries(CurrentKeys, store) {
      var k :| k in store && k !in CurrentKeys && !store[k].Dict?;
      var i :| 0 <= i < |order| && order[i] == k;
    }
  }

  /** The migrated `helper_apps` keeps every old entry no stray key overwrites,
      and holds exactly the old names plus the names the stray keys write. */
  lemma UpgradeKeepsHelpers(store: Store, order: seq<string>, version: string)
    requires EnumeratesKeys(order, store)
    requires StraysAreDictionaries(CurrentKeys, store)
    ensures var h := UpgradeIntended(store, order, version).value["helper_apps"].entries;
            && h.Keys == HelperAppsOf(store).Keys + Names(CurrentKeys, store, order)
            && forall n :: n in HelperAppsOf(store) && n !in Names(CurrentKeys, store, order) ==> h[n] == HelperAppsOf(store)[n]
  {
  }

  /** A stray key whose dictionary names an editor is carried into
      `helper_apps` whole, under its own name, unless a later key overwrites it. */
  lemma StrayEditorEntryKept(store: Store, order: seq<string>, version: string, i: nat)
    requires EnumeratesKeys(order, store)
    requires StraysAreDictionaries(CurrentKeys, store)
    requires i < |order| && order[i] !in CurrentKeys
    requires store[order[i]].Dict? && "editor" in store[order[i]].entries
    requires forall j :: i < j < |order| ==> order[i] !in Writes(CurrentKeys, store, order[j])
    ensures var h := UpgradeIntended(store, order, version).value["helper_apps"].entries;
            order[i] in h && h[order[i]] == store[order[i]]
  {
    LastWriterWins(CurrentKeys, HelperAppsOf(store), store, order, order[i], i);
  }

  /** A stray key whose dictionary names no editor is flattened: each of its
      sub-keys becomes a `key/sub_key` entry of `helper_apps`, unless a later
      key overwrites that name. */
  lemma StraySubKeysFlattened(store: Store, order: seq<string>, version: string, i: nat, sub: string)
    requires EnumeratesKeys(order, store)
    requires StraysAreDictionaries(CurrentKeys, store)
    requires i < |order| && order[i] !in CurrentKeys
    requires store[order[i]].Dict? && "editor" !in store[order[i]].entries
    requires sub in store[order[i]].entries
    requires forall j :: i < j < |order| ==> order[i] + "/" + sub !in Writes(CurrentKeys, store, order[j])
    ensures var h := UpgradeIntended(store, order, version).value["helper_apps"].entries;
            order[i] + "/" + sub in h && h[order[i] + "/" + sub] == store[order[i]].entries[sub]
  {
    LastWriterWins(CurrentKeys, HelperAppsOf(store), store, order, order[i] + "/" + sub, i);
  }
}

=== FILE: Values.dfy ===
/** Plain values standing in for the Cocoa objects the application handles:
    the property-list values kept in the user-defaults store and its typed
    accessors. */
module Values {
  import opened Wrappers
  import opened Decimal

  /** A value held in the preference store: a property-list scalar, a dictionary
      with string keys, or `Null` for what `objectForKey_` returns on a missing key. */
  datatype Value =
    | Null
    | Bool(b: bool)
    | Int(i: int)
    | Str(s: string)
    | Dict(entries: map<string, Value>)

  /** The application's persistent preference domain, keyed by preference name. */
  type Store = map<string, Value>

  /** `objectForKey_`: the stored value, or Null when the key is absent. */
  function ObjectForKey(store: Store, key: string): (v: Value)
    ensures key !in store ==> v == Null
    ensures key in store ==> v == store[key]
  {
    if key in store then store[key] else Null
  }

  /** `boolForKey_`: a boolean or non-zero integer reads as true, anything else
      (absent, string, dictionary) as false. */
  function BoolForKey(store: Store, key: string): (b: bool)
    ensures b ==> key in store
    ensures key in store && store[key] == Bool(true) ==> b
  {
    match ObjectForKey(store, key)
    case Bool(x) => x
    case Int(i) => i != 0
    case _ => false
  }

  /** `stringForKey_`: a stored string as it is, a stored number as its
      decimal text (a boolean is the number 1 or 0), and None when the value
      is absent or a dictionary. */
  function StringForKey(store: Store, key: string): (r: Option<string>)
    ensures r.Some? <==> key in store && (store[key].Str? || store[key].Int? || store[key].Bool?)
    ensures r.Some? && store[key].Str? ==> r.value == store[key].s
    ensures r.Some? && store[key].Int? ==> r.value == IntText(store[key].i)
    ensures r.Some? && store[key].Int? ==> ParseInt(r.value) == Some(store[key].i)
    ensures r.Some? && store[key].Bool? ==> r.value == (if store[key].b then "1" else "0")
  {
    match ObjectForKey(store, key)
    case Str(s) => Some(s)
    case Int(i) => ParseIntText(i); Some(IntText(i))
    case Bool(b) => Some(if b then "1" else "0")
    case _ => None
  }

  /** `dictionaryForKey_`: the stored dictionary, or None when the value is absent
      or not a dictionary. */
  function DictionaryForKey(store: Store, key: string): (r: Option<map<string, Value>>)
    ensures r.Some? <==> key in store && store[key].Dict?
    ensures r.Some? ==> store[key] == Dict(r.value)
  {
    match ObjectForKey(store, key)
    case Dict(m) => Some(m)
    case _ => None
  }

  /** The stored `helper_apps` dictionary, or an empty one when there is
      none: what the preference window starts from and what the migration
      folds old entries into. */
  function HelperAppsOf(store: Store): map<string, Value>
  {
    DictionaryForKey(store, "helper_apps").GetOr(map[])
  }

  /** Python's `d.get(key, default)` on a dictionary. */
  function GetOrDefault(d: map<string, Value>, key: string, default: Value): (v: Value)
    ensures key in d ==> v == d[key]
    ensures key !in d ==> v == default
  {
    if key in d then d[key] else default
  }

  /** True when `keys` lists every key of `m` exactly once: the order in which
      a dictionary's keys happen to be iterated. */
  predicate EnumeratesKeys<V>(keys: seq<string>, m: map<string, V>)
  {
    && (forall i, j :: 0 <= i < j < |keys| ==> keys[i] != keys[j])
    && (forall k :: k in keys ==> k in m)
    && (forall k :: k in m ==> k in keys)
  }
}

=== FILE: Versions.dfy ===
/** Dotted release strings (as the kernel reports them) turned into integer
    lists, and the lexicographic list comparison that picks the toolkit
    flavour the preference window adapts to. */
module Versions {
  import opened Wrappers
  import opened Decimal

  /** `s.split(sep)` with an explicit separator: every occurrence splits, so
      adjacent, leading and trailing separators give empty fields. */
  function Split(s: string, sep: char): (fields: seq<string>)
    ensures |fields| >= 1
    ensures forall i :: 0 <= i < |fields| ==> sep !in fields[i]
    decreases |s|
  {
    if |s| == 0 then [""]
    else
      var rest := Split(s[1..], sep);
      if s[0] == sep then [""] + rest
      else [[s[0]] + rest[0]] + rest[1..]
  }

  /** `sep.join(fields)`: the inverse of `Split`. */
  function Join(fields: seq<string>, sep: char): string
    requires |fields| >= 1
  {
    if |fields| == 1 then fields[0] else fields[0] + [sep] + Join(fields[1..], sep)
  }

  /** Joining the fields of a split gives back the original string. */
  lemma {:induction false} JoinSplit(s: string, sep: char)
    ensures Join(Split(s, sep), sep) == s
    decreases |s|
  {
    if |s| > 0 {
      var rest := Split(s[1..], sep);
      JoinSplit(s[1..], sep);
      if s[0] == sep {
        assert s == [sep] + s[1..];
      } else if |rest| == 1 {
        assert s == [s[0]] + s[1..];
      } else {
        assert rest == [rest[0]] + rest[1..];
        assert Join(rest, sep) == rest[0] + [sep] + Join(rest[1..], sep);
        assert s == [s[0]] + s[1..];
      }
    }
  }

  /** A field free of the separator, followed by the separator, splits off as one field. */
  lemma {:induction false} SplitAfterField(f: string, sep: char, t: string)
    requires sep !in f
    ensures Split(f + [sep] + t, sep) == [f] + Split(t, sep)
    decreases |f|
  {
    var s := f + [sep] + t;
    if |f| == 0 {
      assert s[1..] == t;
    } else {
      assert s[1..] == f[1..] + [sep] + t;
      SplitAfterField(f[1..], sep, t);
      assert [f[0]] + f[1..] == f;
    }
  }

  /** A string free of the separator is a single field. */
  lemma {:induction false} SplitSingleField(f: string, sep: char)
    requires sep !in f
    ensures Split(f, sep) == [f]
    decreases |f|
  {
    if |f| > 0 {
      SplitSingleField(f[1..], sep);
      assert [f[0]] + f[1..] == f;
    }
  }

  /** Splitting a join of separator-free fields gives back exactly those fields. */
  lemma {:induction false} SplitJoin(fields: seq<string>, sep: char)
    requires |fields| >= 1
    requires forall i :: 0 <= i < |fields| ==> sep !in fields[i]
    ensures Split(Join(fields, sep), sep) == fields
  {
    if |fields| == 1 {
      SplitSingleField(fields[0], sep);
    } else {
      SplitJoin(fields[1..], sep);
      SplitAfterField(fields[0], sep, Join(fields[1..], sep));
      assert fields == [fields[0]] + fields[1..];
    }
  }

  datatype VersionError = NotAnInteger(field: string)

  /** Every field reads as an integer. */
  predicate AllIntegers(fields: seq<string>)
  {
    forall i :: 0 <= i < |fields| ==> ParseInt(fields[i]).Some?
  }

  /** `[int(x) for x in fields]`: converts the fields in order and raises at
      the first one that is not an integer. */
  function ParseFields(fields: seq<string>): (r: Result<seq<int>, VersionError>)
    ensures r.Success? <==> AllIntegers(fields)
    ensures r.Success? ==>
              && |r.value| == |fields|
              && forall i :: 0 <= i < |fields| ==> ParseInt(fields[i]) == Some(r.value[i])
    ensures r.Failure? ==>
              exists i :: && 0 <= i < |fields|
                          && ParseInt(fields[i]).None?
                          && r.error == NotAnInteger(fields[i])
                          && forall j :: 0 <= j < i ==> ParseInt(fields[j]).Some?
  {
    if |fields| == 0 then Success([])
    else match ParseInt(fields[0])
      case None => Failure(NotAnInteger(fields[0]))
      case Some(n) =>
        match ParseFields(fields[1..])
        case Failure(e) => Failure(e)
        case Success(ns) => Success([n] + ns)
  }

  /** `comparable_version`: one integer per dot-separated field, in order. */
  function ComparableVersion(version: string): (r: Result<seq<int>, VersionError>)
    ensures r.Success? <==> AllIntegers(Split(version, '.'))
    ensures var fields := Split(version, '.');
            (r.Success? ==>
                  && |r.value| == |fields|
                  && forall i :: 0 <= i < |fields| ==> ParseInt(fields[i]) == Some(r.value[i]))
  {
    ParseFields(Split(version, '.'))
  }

  /** A release written as `%d.%d...` from a list of numbers reads back as
      that list. */
  lemma ComparableVersionOfFormatted(ns: seq<nat>)
    requires |ns| >= 1
    ensures ComparableVersion(Join(FormatAll(ns), '.')) == Success(ns)
  {
    var fields := FormatAll(ns);
    SplitJoin(fields, '.');
    forall i | 0 <= i < |ns|
      ensures ParseInt(fields[i]) == Some(ns[i] as int)
    {
      ParseFormat(ns[i]);
    }
    var r := ParseFields(fields);
    assert r.Success?;
    assert |r.value| == |ns|;
    forall i | 0 <= i < |ns|
      ensures r.value[i] == ns[i]
    {
      assert ParseInt(fields[i]) == Some(r.value[i]);
    }
    assert r.value == ns;
  }

  function FormatAll(ns: seq<nat>): (fields: seq<string>)
    ensures |fields| == |ns|
    ensures forall i :: 0 <= i < |ns| ==> fields[i] == Format(ns[i])
    ensures forall i :: 0 <= i < |ns| ==> '.' !in fields[i]
  {
    seq(|ns|, i requires 0 <= i < |ns| => Format(ns[i]))
  }

  /** Python's `a < b` on lists of integers: lexicographic, and a proper
      prefix is smaller than the list it starts. */
  predicate Less(a: seq<int>, b: seq<int>)
  {
    if |a| == 0 then |b| > 0
    else if |b| == 0 then false
    else a[0] < b[0] || (a[0] == b[0] && Less(a[1..], b[1..]))
  }

  /** The textbook description of lexicographic order: a is a proper prefix
      of b, or the first position where they differ holds the smaller number in a. */
  ghost predicate LexBefore(a: seq<int>, b: seq<int>)
  {
    || (|a| < |b| && a == b[..|a|])
    || exists k :: 0 <= k < |a| && k < |b| && a[..k] == b[..k] && a[k] < b[k]
  }

  /** Every pair `Less` orders is in lexicographic order. */
  lemma {:induction false} LessImpliesLexBefore(a: seq<int>, b: seq<int>)
    requires Less(a, b)
    ensures LexBefore(a, b)
    decreases |a|
  {
    if |a| > 0 {
      if a[0] < b[0] {
        assert a[..0] == b[..0];
      } else {
        LessImpliesLexBefore(a[1..], b[1..]);
        if |a[1..]| < |b[1..]| && a[1..] == b[1..][..|a[1..]|] {
          assert a == [a[0]] + a[1..];
          assert b[..|a|] == [b[0]] + b[1..][..|a| - 1];
        } else {
          var k :| 0 <= k < |a[1..]| && k < |b[1..]| && a[1..][..k] == b[1..][..k] && a[1..][k] < b[1..][k];
          assert a[..k + 1] == [a[0]] + a[1..][..k];
          assert b[..k + 1] == [b[0]] + b[1..][..k];
          assert a[k + 1] < b[k + 1];
        }
      }
    } else {
      assert a == b[..0];
    }
  }

  /** Every pair in lexicographic order is ordered by `Less`. */
  lemma {:induction false} LexBeforeImpliesLess(a: seq<int>, b: seq<int>)
    requires LexBefore(a, b)
    ensures Less(a, b)
    decreases |a|
  {
    if |a| > 0 {
      assert |b| > 0;
      if |a| < |b| && a == b[..|a|] {
        assert a[0] == b[0];
        assert a[1..] == b[1..][..|a| - 1];
        LexBeforeImpliesLess(a[1..], b[1..]);
      } else {
        var k :| 0 <= k < |a| && k < |b| && a[..k] == b[..k] && a[k] < b[k];
        if k > 0 {
          assert a[0] == a[..k][0];
          assert b[0] == b[..k][0];
          assert a[1..][..k - 1] == a[..k][1..];
          assert b[1..][..k - 1] == b[..k][1..];
          assert a[1..][k - 1] < b[1..][k - 1];
          LexBeforeImpliesLess(a[1..], b[1..]);
        }
      }
    }
  }

  /** `Less` is exactly the textbook lexicographic order, in both directions. */
  lemma LessIsLexBefore(a: seq<int>, b: seq<int>)
    ensures Less(a, b) <==> LexBefore(a, b)
  {
    if Less(a, b) { LessImpliesLexBefore(a, b); }
    if LexBefore(a, b) { LexBeforeImpliesLess(a, b); }
  }

  /** No list is smaller than itself. */
  lemma {:induction false} LessIrreflexive(a: seq<int>)
    ensures !Less(a, a)
    decreases |a|
  {
    if |a| > 0 { LessIrreflexive(a[1..]); }
  }

  /** The order is transitive. */
  lemma {:induction false} LessTransitive(a: seq<int>, b: seq<int>, c: seq<int>)
    requires Less(a, b) && Less(b, c)
    ensures Less(a, c)
    decreases |a|
  {
    if |a| > 0 && a[0] == b[0] && b[0] == c[0] {
      LessTransitive(a[1..], b[1..], c[1..]);
    }
  }

  /** Any two different lists are ordered one way or the other. */
  lemma {:induction false} LessTotal(a: seq<int>, b: seq<int>)
    ensures a == b || Less(a, b) || Less(b, a)
    decreases |a|
  {
    if |a| > 0 && |b| > 0 && a[0] == b[0] {
      LessTotal(a[1..], b[1..]);
      if a[1..] == b[1..] {
        assert a == [a[0]] + a[1..] && b == [b[0]] + b[1..];
      }
    }
  }

  datatype Flavour = Panther | Jaguar

  /** The release list `comparable_version("7.0.0")` from which the newer toolkit is assumed. */
  const PantherRelease: seq<int> := [7, 0, 0]

  /** `MACOSX_VERSION`: the newer flavour when the running release compares at
      or above 7.0.0 as integer lists; a release with a non-integer field raises. */
  function MacOsFlavour(release: string): (r: Result<Flavour, VersionError>)
    ensures r.Failure? <==> ComparableVersion(release).Failure?
    ensures r.Success? ==> (r.value == Panther <==> !LexBefore(ComparableVersion(release).value, PantherRelease))
  {
    match ComparableVersion(release)
    case Failure(e) => Failure(e)
    case Success(v) =>
      LessIsLexBefore(v, PantherRelease);
      if !Less(v, PantherRelease) then Success(Panther) else Success(Jaguar)
  }

  /** The fields are compared as numbers, not as text: release 10.3.0 is
      newer than 7.0.0 although the string "10.3.0" sorts before "7.0.0". */
  lemma NumericNotTextual()
    ensures MacOsFlavour("10.3.0") == Success(Panther)
    ensures MacOsFlavour("6.8") == Success(Jaguar)
  {
    ComparableVersionOfFormatted([10, 3, 0]);
    assert Join(FormatAll([10, 3, 0]), '.') == "10.3.0";
    ComparableVersionOfFormatted([6, 8]);
    assert Join(FormatAll([6, 8]), '.') == "6.8";
  }
}

=== FILE: Wrappers.dfy ===
/** Optional results and failures: what the source expresses with nil or None
    and with a raised exception. */
module Wrappers {

  /** A value that may be missing: what a Cocoa accessor answers with nil and
      a Python lookup with None. */
  datatype Option<+T> = None | Some(value: T) {
    /** The value held, falling back to `default` when there is none, as
        `x or default` does for a missing preference. */
    function GetOr(default: T): T {
      if Some? then value else default
    }
  }

  /** The outcome of an operation that raises in the source on bad input. */
  datatype Result<+R, +E> = Success(value: R) | Failure(error: E)
}
